=== FILE: README.md ===
# hatch-regex-commit, modelled in Dafny

hatch-regex-commit is a version-source plugin for the Hatch build tool. When a
project's version is bumped, the plugin does the following:

- it optionally checks that the git working tree is clean;
- it writes the new version into a file, using the regular-expression substitution
  it inherits from hatchling's `RegexSource`;
- it stages and commits that file;
- it tags the commit.

Every git access goes through a small `Git` adapter class. The adapter also parses
`git describe` output into the latest tag's version, distance and commit hash.

This project models that core as pure Dafny functions and proves properties of it.

- **Commands as events.** Every external effect is an `Event` in a trace: a command
  run, the inherited substitution, or the temporary commit-message file being written
  or removed.
- **The environment as an oracle.** What the outside world answers is an `Outcome`:
  an exit code and output, or an `OSError` with its `errno`. An environment oracle
  `Env` chooses it, given the trace so far.
- **Exceptions as values.** A call is a `Step`: the events it caused, plus its return
  value or the exception it raised (`Error`).
- **Reference plan.** `set_version` is compared with an independent description:
  - the configuration is resolved up front into `Settings`, checking each option's
    type in the order the run reads them;
  - the `Plan` is the event sequence those settings call for when nothing fails.

The main results are these.

- **The describe parser.** It undoes rendering, with or without the dirty marker and
  whatever whitespace git prints after the output. Hyphens inside the version
  survive. The dirty marker is consumed before any other field.
- **The status filter.** It keeps exactly the stripped, non-`??` lines, in order. The
  dirty message lists exactly those lines. The check passes exactly when no such line
  exists.
- **The tag command.** The sign flag, the name and the message can all be read back
  from it.
- **A run of `set_version`:**
  - whatever the environment answers, it performs a prefix of its plan, and the whole
    plan whenever it succeeds (a run can also perform the whole plan and fail, when its
    last command fails);
  - in an environment where every command succeeds, it completes the plan or raises
    the configuration's first type error;
  - every git command it issues other than the usability probe comes right after a
    probe;
  - a dirty tree stops it before the file is touched.

Modules:

| file | module | contents |
|---|---|---|
| wrappers.dfy | Wrappers | `Option`, `Result` |
| text.dfy | Text | `strip`/`lstrip`/`rstrip`, `split`/`join`, `bytes.splitlines`, `int()`, `str()` of numbers |
| values.dfy | Values | configuration values as the host hands them over |
| errors.dfy | Errors | the plugin's exceptions and the built-in ones that can escape |
| process.dfy | Process | events, outcomes, the environment, `subprocess.check_output` |
| describe.dfy | Describe | the `git describe` parser of `latest_tag_info` |
| git.dfy | Git | the `Git` adapter class |
| version_source.dfy | VersionSource | `RegexCommitSource`: configuration accessors, templates, `set_version` |
| set_version_properties.dfy | SetVersionProperties | settings, the plan, and the theorems about `set_version` |

The model keeps these behaviours of the code, although a reader might expect
otherwise:

- **Lazy type checks.** Configuration options are type-checked when they are read,
  not before any side effect. In every run that raises the TypeError of a
  `commit_extra_args` that is not a list, the file was already substituted and
  staged (`ExtraArgsCheckedLate`). A bad `tag_sign` raises after the tag step's probe.
- **Whitespace around the distance.** `int()` skips every `str.isspace()` character
  around the number except the separators U+001C to U+001F. Those are spaces for
  `str.strip()` but not for `int()`, so a distance token that starts with one is a
  ValueError, whatever else the token holds.
- **The extra-arguments message.** The `TypeError` for `commit_extra_args` shows the
  offending value, not the option name.
- **`lstrip`.** `lstrip("g")` and `lstrip("v")` remove every leading `g` or `v`, not
  just one. A well-formed hash or version therefore must not start with that letter.
- **Failures that give `{}`.** `latest_tag_info` also returns `{}` when the
  `update-index --refresh` command fails, not only when `describe` fails.
- **Start-up errors propagate.** An `OSError` from a command that cannot be started
  propagates. The one exception is the probe in `is_usable`, for the three errno
  values it tolerates.

## Model

| member | source | states |
|---|---|---|
| Git.ClassifyProbe | hatch_regex_commit/git.py:19-32 | the probe outcome means usable iff exit code 0; unusable iff a non-zero exit or errno ENOENT, EACCES or ENOTDIR; any other start-up errno is re-raised as that OSError |
| Git.IsUsable | hatch_regex_commit/git.py:19-32 | `is_usable` runs exactly the probe command once; it answers true iff that exits 0, and raises iff the probe could not start for a reason other than the three tolerated errno values |
| Git.KeepLine | hatch_regex_commit/git.py:36-42 | one status line is dropped iff its stripped form starts with `??`, otherwise kept as its stripped form, which has no whitespace at either end |
| Git.TrackedLines | hatch_regex_commit/git.py:36-42 | the filtered list is no longer than the status output, holds only stripped non-`??` lines, and is empty iff every line is an untracked entry |
| Git.TrackedLinesAppend | hatch_regex_commit/git.py:36-42 | filtering distributes over concatenation, so kept lines keep their original relative order |
| Git.TrackedLinesSingle | hatch_regex_commit/git.py:36-42 | a single line is dropped when untracked and otherwise kept stripped |
| Git.TrackedLinesKeepLinesWhole | hatch_regex_commit/git.py:36-42 | no kept line contains a line break, so the lines can be recovered from the message |
| Git.DirtyMessageLists | hatch_regex_commit/git.py:44-49 | the dirty message starts with the fixed first line, and splitting the remainder at newlines gives back exactly the kept lines |
| Git.NondirtyOfStatusLines | hatch_regex_commit/git.py:36-49 | when the status output is one entry per line, the check passes iff every entry is untracked and otherwise raises the dirty message built from exactly the tracked entries |
| Git.AssertNondirty | hatch_regex_commit/git.py:34-49 | runs only `git status --porcelain`; passes iff it exits 0 and every line is untracked; a dirty tree raises WorkingDirectoryIsDirty listing the kept lines; a non-zero exit re-raises the CalledProcessError carrying the status command, its code and its output; a start-up error re-raises its OSError |
| Git.Commit | hatch_regex_commit/git.py:51-65 | writes the message first and removes the temporary file last on every path; the command is skipped only when an extra argument is not a string, and then the TypeError names the first such argument, as `subprocess` converts them in order; otherwise the command is `git commit -F <file>` followed by exactly the extra arguments, in order and unchanged, and the result is the command's outcome, re-raised unchanged |
| Git.CommitWithoutExtraArgs | hatch_regex_commit/git.py:53 | `extra_args=None` behaves exactly like `[]` and runs `git commit -F <file>` with nothing after it |
| Git.LatestTagInfo | hatch_regex_commit/git.py:67-104 | refresh then describe, and describe runs whenever the refresh exits 0; a non-zero exit of either gives `{}` with no exception; a start-up error of either raises its OSError; when describe exits 0 the result is its parse, so a parse error (IndexError, ValueError) is raised and not turned into `{}`; a returned info is well formed |
| Git.DescribeStep | hatch_regex_commit/git.py:72-104 | runs exactly `git describe`; a non-zero exit is caught and gives `{}`; a start-up error raises its OSError; a zero exit gives the parse of the output, whose IndexError or ValueError is raised because the parse sits outside the `try` |
| Git.AddPath | hatch_regex_commit/git.py:106-108 | a string path runs exactly `git add --update <path>` and returns or raises as `check_output` does on its outcome (CalledProcessError on a non-zero exit); any other value raises TypeError before a command starts |
| Git.TagArgv | hatch_regex_commit/git.py:118-122 | the tag command is `git tag <name>`, then `--sign` iff signing, then `--message <message>` iff the message is non-empty, so the sign flag precedes the message |
| Git.TagArgvRoundTrip | hatch_regex_commit/git.py:118-122 | the sign flag, the name and the message can all be read back from the tag command, so different requests give different commands |
| Git.Tag | hatch_regex_commit/git.py:110-123 | runs exactly the tag command and returns or raises as `check_output` does on its outcome: nothing on exit 0, CalledProcessError with the command on another code, the OSError when it cannot start |
| Describe.ParseFields | hatch_regex_commit/git.py:100-102 | popping hash, distance and version: fails iff fewer than two tokens (IndexError) or a non-integer distance token (ValueError); a result has no leading `g` on the hash, no leading `v` on the version, a non-negative distance and no dirty flag |
| Describe.ParseTokens | hatch_regex_commit/git.py:96-102 | the parsed info is dirty iff the last token strips to `dirty`; a single token is an IndexError |
| Describe.ParseDescribe | hatch_regex_commit/git.py:94-104 | a successful parse is dirty iff the output ends in the dirty marker, has a hash with no `-` and no leading `g`, a version with no leading `v`, and a non-negative distance; failures are IndexError or ValueError |
| Describe.NoSeparatorTooShort | hatch_regex_commit/git.py:96-101 | output with no `-` fails with IndexError, as the pop of the distance finds the list empty |
| Describe.RoundTrip | hatch_regex_commit/git.py:94-104 | parsing the rendered describe output of a well-formed info, plus any trailing whitespace, gives the info back; without the dirty marker the whitespace stays on the hash |
| Describe.CleanRoundTrip | hatch_regex_commit/git.py:94-104 | without the marker, the rendered output parses back to the info, with the trailing whitespace appended to the hash |
| Describe.DirtyRoundTrip | hatch_regex_commit/git.py:94-104 | with the marker, the rendered output parses back to exactly the info, as the whitespace is stripped along with the marker |
| Describe.FieldsParse | hatch_regex_commit/git.py:100-102 | the tokens of a version (hyphens included), a rendered distance and a `g`-prefixed hash parse back to those three values |
| Describe.DirtyMarkerConsumed | hatch_regex_commit/git.py:96-98 | appending a dirty token to clean output changes the parse only by setting the dirty flag: the marker is removed before anything else is read |
| Describe.TrailingNewlineKept | hatch_regex_commit/git.py:96-100 | a clean describe output's final newline ends up on the commit hash |
| VersionSource.GetBool | hatch_regex_commit/version_source.py:76-80 | an absent option gives the default, a boolean is returned unchanged, anything else raises TypeError naming the option |
| VersionSource.GetStr | hatch_regex_commit/version_source.py:82-86 | an absent option gives the default, a string is returned unchanged, anything else raises TypeError naming the option |
| VersionSource.GetExtraArgs | hatch_regex_commit/version_source.py:32-37 | absent gives the empty list; a list is returned unchanged, elements unchecked; any other value raises TypeError whose message shows the value |
| VersionSource.Defaults | hatch_regex_commit/version_source.py:18-55 | with no options set, the dirty check, commit, tag and signing are all on, the path is empty, the extra arguments are empty, and the templates are the bump message and `v{new_version}` |
| VersionSource.FormatLiteral | hatch_regex_commit/version_source.py:68 | template text without braces is copied unchanged by formatting |
| VersionSource.FormatFields | hatch_regex_commit/version_source.py:63-68 | `{current_version}` is replaced by the old version from `version_data`, `{new_version}` by the new version |
| VersionSource.FormatDefaultTagName | hatch_regex_commit/version_source.py:72 | the default tag name formats to `v` followed by the new version |
| VersionSource.FormatDefaultMessage | hatch_regex_commit/version_source.py:68 | the default message formats to `Bump version <current> → <new>` |
| VersionSource.UseGit | hatch_regex_commit/version_source.py:12-16 | every access to `git` runs the probe once; it passes iff the probe exits 0; a non-zero exit or a missing program, permission or directory raises GitNotAvailable; any other start-up error raises the probe's own OSError |
| VersionSource.DirtyStage | hatch_regex_commit/version_source.py:58-59 | a badly typed `check_dirty` raises its TypeError before any command; with the check off nothing happens; with it on, a failed probe ends the step with the `git` property's error, and otherwise the step is the probe followed by `assert_nondirty`, whose result (pass, WorkingDirectoryIsDirty, CalledProcessError or OSError) it returns unchanged |
| VersionSource.Substitution | hatch_regex_commit/version_source.py:61 | the inherited substitution is one event carrying the new version; it succeeds iff the environment answers that event with exit 0, and its only failure is its own |
| VersionSource.StageFile | hatch_regex_commit/version_source.py:66-67 | a failed probe ends staging with the `git` property's error; otherwise staging is the probe followed by `add_path` of the configured `path` (default empty), whose result it returns unchanged |
| VersionSource.CommitFile | hatch_regex_commit/version_source.py:68-69 | a badly typed `commit_message` raises before any command; a failed probe ends the step with its error; a non-list `commit_extra_args` raises its TypeError after the probe; otherwise the probe is followed by `commit` with the formatted message and the extra arguments, whose result is returned unchanged |
| VersionSource.CommitStage | hatch_regex_commit/version_source.py:65-69 | a badly typed `commit` raises before any command; with it off nothing happens; with it on, a failed staging ends the step with its error, and otherwise the commit follows and its result is the step's |
| VersionSource.TagStage | hatch_regex_commit/version_source.py:71-74 | a badly typed `tag`, `tag_name` or `tag_message` raises before any command; with `tag` off nothing happens; a failed probe ends the step with its error; a badly typed `tag_sign` raises after the probe; otherwise the probe is followed by `tag` with the formatted name and message, whose result is returned unchanged |
| SetVersionProperties.DirtyStageFollowsPlan | hatch_regex_commit/version_source.py:58-59 | the dirty check performs nothing when off and probe-then-status when on, stopping early only on failure |
| SetVersionProperties.StageFileFollowsPlan | hatch_regex_commit/version_source.py:66-67 | staging performs a prefix of probe-then-add, all of it when it succeeds |
| SetVersionProperties.CommitFileFollowsPlan | hatch_regex_commit/version_source.py:68-69 | committing performs a prefix of probe, write of the formatted message, commit command, removal, all of it on success |
| SetVersionProperties.CommitStageResolved | hatch_regex_commit/version_source.py:65-69 | the commit step succeeds only if every commit option it reads is well typed |
| SetVersionProperties.CommitStageFollowsPlan | hatch_regex_commit/version_source.py:65-69 | with `commit` off nothing happens; with it on, staging strictly precedes committing and a failure stops the step inside that order |
| SetVersionProperties.TagStageResolved | hatch_regex_commit/version_source.py:71-74 | the tag step succeeds only if every tag option it reads is well typed |
| SetVersionProperties.TagStageFollowsPlan | hatch_regex_commit/version_source.py:71-74 | with `tag` off nothing happens; with it on, the probe and then the tag command with the formatted name and message and the sign flag |
| SetVersionProperties.SuccessIsResolved | hatch_regex_commit/version_source.py:57-74 | a run that succeeds had a `version` key and a well-typed configuration |
| SetVersionProperties.RunFollowsPlan | hatch_regex_commit/version_source.py:57-74 | whatever the environment answers, a run performs a prefix of the plan: dirty check, substitution, commit, tag, in that order, none skipped and none undone; it performs the whole plan when it succeeds |
| SetVersionProperties.SuccessFollowsPlan | hatch_regex_commit/version_source.py:57-74 | a successful run performed exactly the plan of its configuration |
| SetVersionProperties.AllOkRunsPlan | hatch_regex_commit/version_source.py:57-74 | when every command succeeds, a run with a well-typed configuration performs its whole plan and returns; otherwise it raises the configuration's first type error |
| SetVersionProperties.RunIsGated | hatch_regex_commit/version_source.py:12-16 | every git command a run issues, other than the probe, comes directly after a probe, whatever the configuration and environment |
| SetVersionProperties.RunStart | hatch_regex_commit/version_source.py:58-61 | a run starts with the dirty stage; if that fails the run ends with its error, otherwise the substitution comes next |
| SetVersionProperties.NoSubstitutionWhileChecking | hatch_regex_commit/version_source.py:58-59 | the dirty check never touches the file |
| SetVersionProperties.DirtyStageDirty | hatch_regex_commit/version_source.py:58-59 | the dirty stage raises WorkingDirectoryIsDirty iff the check is on, the probe and the status exit 0 and some status line is tracked; the step is then exactly probe and status, and the message lists the tracked lines |
| SetVersionProperties.DirtyStopsRun | hatch_regex_commit/version_source.py:58-61 | a run raises WorkingDirectoryIsDirty iff the check is on and the tree is dirty; it then ends after exactly the probe and the status command, with the message listing the tracked lines and no substitution, staging, commit or tag |
| SetVersionProperties.RunRaisesFirstError | hatch_regex_commit/version_source.py:57-74 | a failed substitution ends the run with SubstitutionFailed right after it; a `version_data` without `version` then raises KeyError; a failed commit stage ends the run with that stage's error; otherwise the run ends with the tag stage's result, so the error a run raises is that of its first failing stage |
| SetVersionProperties.CheckPassed | hatch_regex_commit/version_source.py:58-59 | a passed dirty check is the probe and a status that exited 0 listing only untracked files |
| SetVersionProperties.CleanBeforeSubstitution | hatch_regex_commit/version_source.py:58-61 | with the check on, the file is substituted only third, after the probe and a clean status |
| SetVersionProperties.UncheckedSubstitutesFirst | hatch_regex_commit/version_source.py:58-61 | with the check off, the substitution is the run's first event |
| SetVersionProperties.MissingVersionAfterSubstitution | hatch_regex_commit/version_source.py:61-63 | without a `version` key the run fails, with KeyError exactly when the substitution had already gone through |
| SetVersionProperties.ExtraArgsCheckedLate | hatch_regex_commit/version_source.py:65-69 | for every configuration and environment: when a run raises the TypeError of a non-list `commit_extra_args`, the `version` key was present, the path was a string, and the dirty check, the substitution, the probe, `git add` and the commit's probe had all happened, in that order |
| SetVersionProperties.ExtraArgsExample | hatch_regex_commit/version_source.py:65-69 | with every command succeeding and only a non-list `commit_extra_args` set, the run performs exactly probe, status, substitution, probe, `git add --update ""`, probe, and then raises that TypeError |
| Text.IntRejectsLeadingSeparator | hatch_regex_commit/git.py:101 | `int()` never skips a leading U+001C to U+001F separator, so a distance token starting with one is rejected whatever follows, non-ASCII spaces included |
| Text.IntSkipsUnicodeSpace | hatch_regex_commit/git.py:101 | a space beyond ASCII after the digits is skipped, and the digits are read |

## Left out

- Running commands: `subprocess`, the temporary file and the regular-expression
  substitution are effects whose outcomes the environment oracle decides. The name of
  the temporary file is a parameter. Writing and removing it always succeed.
- The inherited `RegexSource.set_version` from hatchling is one opaque `Substitute`
  event. Whatever it raises is the single error `SubstitutionFailed`.
- Logging (`logger.exception`, `logger.debug`) has no effect on results and is not
  modelled.
- Byte strings and strings are both `seq<char>`. UTF-8 encoding and decoding,
  including a decode error on non-UTF-8 output, are not modelled.
- VersionSource.Format: only the two plain fields `{current_version}` and
  `{new_version}` are replaced, and every other character is copied literally.
  `str.format` reads more than that. It turns the doubled braces `{{` and `}}` into
  single braces, and it applies conversions and format specifications such as
  `{new_version!r}` or `{new_version:>10}`. Those are copied unchanged here. It raises on
  an unknown or positional field and on a lone brace, and those are copied here
  without raising.
- Text.ParseInt: underscores between digits and non-ASCII decimal digits, both of
  which `int()` accepts, are rejected. The whitespace it skips is modelled.
- The `errno` constants use Linux numbering.
- The fixed message text of GitNotAvailableException is not modelled. The error is
  identified by its kind alone, because no caller in the core reads the message. The
  WorkingDirectoryIsDirty message is modelled, since it lists the dirty lines.
- The `stderr` redirection of `is_usable` and `latest_tag_info`: the describe
  output stands for standard output and standard error together.
- `hatch_regex_commit/hooks.py` only registers the plugin with Hatch and is not part
  of this model.
- Exceptions the interpreter itself can raise anywhere (`KeyboardInterrupt`,
  `MemoryError`) are not modelled.

=== FILE: describe.dfy ===
/** Parsing the output of `git describe --dirty --tags --long`, which has the shape
    `v<version>-<distance>-g<sha>[-dirty]` followed by a newline. The output is split
    on `-` and consumed from the right, so hyphens inside the version survive. */
module Describe {
  import opened Wrappers
  import opened Text
  import opened Errors

  /** The dictionary `latest_tag_info` returns after a successful describe.
      `dirty == false` stands for the dictionary without a "dirty" key. */
  datatype DescribeInfo = DescribeInfo(dirty: bool, commitSha: string, distance: int, currentVersion: string)

  predicate NoLeading(s: string, c: char) {
    s == [] || s[0] != c
  }

  /** A token that reads `dirty` once surrounding whitespace is stripped. */
  predicate IsDirtyToken(token: string) {
    Trim(token, UnicodeWhitespace) == "dirty"
  }

  /** The describe output's last `-`-separated token is the dirty marker. */
  predicate EndsDirty(out: string) {
    var tokens := Split(out, '-');
    IsDirtyToken(tokens[|tokens| - 1])
  }

  /** Popping the commit token, then the distance token, and re-joining what is left
      as the version. */
  function ParseFields(tokens: seq<string>): (r: Result<DescribeInfo, Error>)
    requires forall i :: 0 <= i < |tokens| ==> '-' !in tokens[i]
    ensures r.Success? ==> !r.value.dirty
    ensures r.Success? ==> '-' !in r.value.commitSha && NoLeading(r.value.commitSha, 'g')
    ensures r.Success? ==> NoLeading(r.value.currentVersion, 'v') && r.value.distance >= 0
    ensures r.Failure? <==> |tokens| < 2 || ParseInt(tokens[|tokens| - 2]).None?
    ensures r.Failure? ==> r.error == IndexError || r.error.ValueError?
    ensures r.Failure? ==> (r.error == IndexError <==> |tokens| < 2)
  {
    if |tokens| == 0 then Failure(IndexError)
    else
      var last := tokens[|tokens| - 1];
      var sha := TrimStart(last, {'g'});
      SuffixKeepsAbsent(last, sha, '-');
      var rest := tokens[..|tokens| - 1];
      if |rest| == 0 then Failure(IndexError)
      else
        var token := rest[|rest| - 1];
        assert token == tokens[|tokens| - 2];
        match ParseInt(token)
        case None => Failure(ValueError(token))
        case Some(distance) =>
          assert '-' !in token;
          Success(DescribeInfo(false, sha, distance, TrimStart(Join(rest[..|rest| - 1], '-'), {'v'})))
  }

  function MarkDirty(r: Result<DescribeInfo, Error>): (m: Result<DescribeInfo, Error>)
    ensures m.Success? <==> r.Success?
    ensures m.Success? ==> m.value == r.value.(dirty := true)
    ensures m.Failure? ==> m == r
  {
    if r.Success? then Success(r.value.(dirty := true)) else r
  }

  /** The parse of `latest_tag_info`. A successful parse never yields a commit hash
      that starts with `g` or holds a `-`, nor a version that starts with `v`, nor a
      negative distance (the sign would have been a separator); it is dirty exactly
      when the output ends in the dirty marker. */
  function ParseDescribe(out: string): (r: Result<DescribeInfo, Error>)
    ensures r.Success? ==> '-' !in r.value.commitSha && NoLeading(r.value.commitSha, 'g')
    ensures r.Success? ==> NoLeading(r.value.currentVersion, 'v')
    ensures r.Success? ==> r.value.distance >= 0
    ensures r.Success? ==> (r.value.dirty <==> EndsDirty(out))
    ensures r.Failure? ==> r.error == IndexError || r.error.ValueError?
  {
    ParseTokens(Split(out, '-'))
  }

  /** Output without any `-` is a single token, too short to hold the fields. */
  lemma NoSeparatorTooShort(out: string)
    requires '-' !in out
    ensures ParseDescribe(out) == Failure(IndexError)
  {
    SplitNoSeparator(out, '-');
  }

  /** The tokens of a describe output, read from the right: an optional dirty marker,
      then the fields. A single token is too short. */
  function ParseTokens(tokens: seq<string>): (r: Result<DescribeInfo, Error>)
    requires |tokens| >= 1
    requires forall i :: 0 <= i < |tokens| ==> '-' !in tokens[i]
    ensures r.Success? ==> '-' !in r.value.commitSha && NoLeading(r.value.commitSha, 'g')
    ensures r.Success? ==> NoLeading(r.value.currentVersion, 'v')
    ensures r.Success? ==> r.value.distance >= 0
    ensures r.Success? ==> (r.value.dirty <==> IsDirtyToken(tokens[|tokens| - 1]))
    ensures |tokens| == 1 ==> r == Failure(IndexError)
    ensures r.Failure? ==> r.error == IndexError || r.error.ValueError?
  {
    var n := |tokens|;
    if IsDirtyToken(tokens[n - 1]) then
      PiecesOfPrefix(tokens, n - 1);
      MarkDirty(ParseFields(tokens[..n - 1]))
    else
      ParseFields(tokens)
  }

  /** The first `n` tokens hold no separator when none of the tokens does. */
  lemma PiecesOfPrefix(tokens: seq<string>, n: nat)
    requires forall i :: 0 <= i < |tokens| ==> '-' !in tokens[i]
    requires n <= |tokens|
    ensures forall i :: 0 <= i < n ==> '-' !in tokens[..n][i]
  {
  }

  /** The describe infos git can print: the version does not start with `v`, the hash
      neither starts with `g` nor holds a `-`, and the distance is a count. */
  predicate WellFormed(info: DescribeInfo) {
    && NoLeading(info.currentVersion, 'v')
    && NoLeading(info.commitSha, 'g')
    && '-' !in info.commitSha
    && info.distance >= 0
  }

  /** The output git describe prints for `info`, without its final newline. */
  function Render(info: DescribeInfo): string
    requires info.distance >= 0
  {
    var body := ("v" + info.currentVersion) + "-" + NatToString(info.distance) + "-" + ("g" + info.commitSha);
    if info.dirty then body + "-" + "dirty" else body
  }

  predicate AllSpace(s: string) {
    forall i :: 0 <= i < |s| ==> s[i] in UnicodeWhitespace
  }

  /** Parsing undoes rendering, whatever whitespace follows (git ends its output with a
      newline). Without the dirty marker that whitespace stays on the commit hash;
      with it, it is stripped along with the marker. Hyphens inside the version are
      kept. */
  lemma RoundTrip(info: DescribeInfo, tail: string)
    requires WellFormed(info)
    requires AllSpace(tail)
    ensures ParseDescribe(Render(info) + tail)
         == Success(if info.dirty then info else info.(commitSha := info.commitSha + tail))
  {
    if info.dirty {
      DirtyRoundTrip(info, tail);
    } else {
      CleanRoundTrip(info, tail);
    }
  }

  /** Without the marker, the trailing whitespace is part of the last field. */
  lemma CleanRoundTrip(info: DescribeInfo, tail: string)
    requires WellFormed(info) && !info.dirty
    requires AllSpace(tail)
    ensures ParseDescribe(Render(info) + tail) == Success(info.(commitSha := info.commitSha + tail))
  {
    var version := "v" + info.currentVersion;
    var digits := NatToString(info.distance);
    var sha := info.commitSha + tail;
    var shaToken := "g" + sha;
    NoHyphenInDigits(digits);
    NoHyphenInSpace(tail);
    HashKeepsShape(info.commitSha, sha, tail);
    var out := version + "-" + digits + "-" + shaToken;
    assert Render(info) + tail == out by {
      Associative(version + "-" + digits + "-", "g" + info.commitSha, tail);
      Associative("g", info.commitSha, tail);
    }
    SplitThreeFields(version, digits, shaToken);
    var tokens := Split(out, '-');
    assert tokens[|tokens| - 1] == shaToken;
    ShaTokenIsNotDirty(shaToken);
    CleanParse(out);
    FieldsParse(info.currentVersion, info.distance, sha);
  }

  /** With the marker, the trailing whitespace goes with it. */
  lemma DirtyRoundTrip(info: DescribeInfo, tail: string)
    requires WellFormed(info) && info.dirty
    requires AllSpace(tail)
    ensures ParseDescribe(Render(info) + tail) == Success(info)
  {
    var version := "v" + info.currentVersion;
    var digits := NatToString(info.distance);
    var shaToken := "g" + info.commitSha;
    NoHyphenInDigits(digits);
    NoHyphenInSpace(tail);
    HashKeepsShape(info.commitSha, info.commitSha, tail);
    var body := version + "-" + digits + "-" + shaToken;
    var fields := Split(version, '-') + [digits, shaToken];
    SplitThreeFields(version, digits, shaToken);
    FieldsParse(info.currentVersion, info.distance, info.commitSha);
    DirtyOutput(body, fields, tail);
  }

  lemma NoHyphenInDigits(digits: string)
    requires IsDigits(digits)
    ensures '-' !in digits
  {
    assert forall k :: 0 <= k < |digits| ==> digits[k] != '-' by {
      forall k | 0 <= k < |digits| ensures digits[k] != '-' {
        assert IsDigit(digits[k]);
      }
    }
  }

  lemma NoHyphenInSpace(tail: string)
    requires AllSpace(tail)
    ensures '-' !in tail
  {
    assert forall k :: 0 <= k < |tail| ==> tail[k] != '-' by {
      forall k | 0 <= k < |tail| ensures tail[k] != '-' {
        assert tail[k] in UnicodeWhitespace;
      }
    }
  }

  /** The hash with the whitespace that may follow it still has no `g` in front and
      no `-` in it. */
  lemma HashKeepsShape(commitSha: string, sha: string, tail: string)
    requires NoLeading(commitSha, 'g') && '-' !in commitSha
    requires sha == commitSha || sha == commitSha + tail
    requires AllSpace(tail) && '-' !in tail
    ensures NoLeading(sha, 'g') && '-' !in sha
  {
    if |sha| > 0 {
      if |commitSha| == 0 {
        assert sha[0] == tail[0];
        assert tail[0] in UnicodeWhitespace;
      } else {
        assert sha[0] == commitSha[0];
      }
    }
  }

  lemma Associative(a: string, b: string, c: string)
    ensures a + b + c == a + (b + c)
  {
  }

  /** `lstrip(c)` takes exactly one `c` from `c` followed by a string not starting with `c`. */
  lemma StripOneLeading(c: char, s: string)
    requires NoLeading(s, c)
    ensures TrimStart([c] + s, {c}) == s
  {
    assert ([c] + s)[1..] == s;
  }

  lemma SplitThreeFields(a: string, b: string, c: string)
    requires '-' !in b && '-' !in c
    ensures Split(a + "-" + b + "-" + c, '-') == Split(a, '-') + [b, c]
  {
    SplitNoSeparator(b, '-');
    SplitNoSeparator(c, '-');
    var tail := b + "-" + c;
    SplitAtSeparator(b, c, '-');
    SplitAtSeparator(a, tail, '-');
    Associative(a + "-", b, "-");
    Associative(a + "-", b + "-", c);
  }

  /** The three rightmost fields of a rendered describe output parse back. */
  lemma FieldsParse(currentVersion: string, distance: nat, sha: string)
    requires NoLeading(currentVersion, 'v') && NoLeading(sha, 'g') && '-' !in sha
    requires '-' !in NatToString(distance)
    ensures var fields := Split("v" + currentVersion, '-') + [NatToString(distance), "g" + sha];
            ParseFields(fields) == Success(DescribeInfo(false, sha, distance, currentVersion))
  {
    var version := Split("v" + currentVersion, '-');
    var digits := NatToString(distance);
    var shaToken := "g" + sha;
    assert '-' !in shaToken by {
      assert shaToken == ['g'] + sha;
    }
    PiecesConcat(version, [digits, shaToken]);
    ParseFieldsShape(version + [digits, shaToken], version, digits, shaToken);
    ParseIntOfNatToString(distance);
    StripOneLeading('g', sha);
    StripOneLeading('v', currentVersion);
  }

  /** How the parse reads the last two tokens and joins the ones before them. */
  lemma ParseFieldsShape(fields: seq<string>, front: seq<string>, token: string, last: string)
    requires forall i :: 0 <= i < |fields| ==> '-' !in fields[i]
    requires fields == front + [token, last]
    ensures ParseFields(fields)
      == match ParseInt(token)
         case None => Failure(ValueError(token))
         case Some(distance) =>
           Success(DescribeInfo(false, TrimStart(last, {'g'}), distance, TrimStart(Join(front, '-'), {'v'})))
  {
    assert fields[|fields| - 1] == last;
    assert fields[..|fields| - 1] == front + [token];
    assert (front + [token])[..|front|] == front;
  }

  /** Two lists of separator-free tokens joined are separator free. */
  lemma PiecesConcat(a: seq<string>, b: seq<string>)
    requires forall i :: 0 <= i < |a| ==> '-' !in a[i]
    requires forall i :: 0 <= i < |b| ==> '-' !in b[i]
    ensures forall i :: 0 <= i < |a + b| ==> '-' !in (a + b)[i]
  {
    forall i | 0 <= i < |a + b| ensures '-' !in (a + b)[i] {
      if i < |a| {
        assert (a + b)[i] == a[i];
      } else {
        assert (a + b)[i] == b[i - |a|];
      }
    }
  }

  /** Output ending in `-dirty` plus whitespace is the dirty parse of what precedes it. */
  lemma DirtyOutput(body: string, fields: seq<string>, tail: string)
    requires Split(body, '-') == fields
    requires AllSpace(tail) && '-' !in tail
    ensures ParseDescribe(body + "-" + "dirty" + tail) == MarkDirty(ParseFields(fields))
  {
    Associative(body + "-", "dirty", tail);
    var marker := "dirty" + tail;
    assert '-' !in marker;
    TrimOfPadded("dirty", tail, UnicodeWhitespace);
    SplitNoSeparator(marker, '-');
    SplitAtSeparator(body, marker, '-');
    assert (fields + [marker])[..|fields|] == fields;
  }

  /** A token that starts with `g` is not the dirty marker. */
  lemma ShaTokenIsNotDirty(token: string)
    requires |token| > 0 && token[0] == 'g'
    ensures !IsDirtyToken(token)
  {
    var s := TrimStart(token, UnicodeWhitespace);
    assert 'g' !in UnicodeWhitespace;
    assert s == token;
    var t := TrimEnd(s, UnicodeWhitespace);
    assert |t| > 0;
    assert t[0] == 'g';
    assert "dirty"[0] == 'd';
  }

  /** With the dirty marker appended, the output parses as before, only marked dirty:
      the marker is consumed before any other field is read. */
  lemma DirtyMarkerConsumed(out: string, marker: string)
    requires '-' !in marker && IsDirtyToken(marker)
    requires !EndsDirty(out)
    ensures ParseDescribe(out + "-" + marker) == MarkDirty(ParseDescribe(out))
  {
    CleanParse(out);
    MarkedParse(out, marker);
  }

  /** Without the marker, all tokens are fields. */
  lemma CleanParse(out: string)
    requires !EndsDirty(out)
    ensures ParseDescribe(out) == ParseFields(Split(out, '-'))
  {
  }

  /** With a marker appended, the tokens before it are the fields. */
  lemma MarkedParse(out: string, marker: string)
    requires '-' !in marker && IsDirtyToken(marker)
    ensures ParseDescribe(out + "-" + marker) == MarkDirty(ParseFields(Split(out, '-')))
  {
    var tokens := Split(out, '-');
    SplitNoSeparator(marker, '-');
    SplitAtSeparator(out, marker, '-');
    var all := tokens + [marker];
    assert Split(out + "-" + marker, '-') == all;
    assert all[|all| - 1] == marker;
    assert all[..|all| - 1] == tokens;
  }

  /** The newline git prints after a clean describe stays on the commit hash. */
  lemma TrailingNewlineKept(version: string, distance: nat, sha: string)
    requires NoLeading(version, 'v') && NoLeading(sha, 'g') && '-' !in sha
    ensures ParseDescribe(("v" + version) + "-" + NatToString(distance) + "-" + ("g" + sha) + "\n")
         == Success(DescribeInfo(false, sha + "\n", distance, version))
  {
    var info := DescribeInfo(false, sha, distance, version);
    assert AllSpace("\n");
    RoundTrip(info, "\n");
  }
}

=== FILE: errors.dfy ===
/** The exceptions that can leave the plugin: its own two (GitNotAvailableException and
    WorkingDirectoryIsDirtyException, both HatchRegexCommitException), the ones
    `subprocess` raises, and the Python built-ins the code lets escape. */
module Errors {

  datatype Error =
    | GitNotAvailable
    | WorkingDirectoryIsDirty(message: string)
      /** `subprocess.CalledProcessError`: the command, its exit code and its output. */
    | CalledProcessError(cmd: seq<string>, returncode: int, output: string)
      /** An `OSError` raised while starting a command, with its `errno`. */
    | OSError(errno: int)
    | TypeError(message: string)
      /** `int()` given a token that is not a number. */
    | ValueError(token: string)
      /** `list.pop()` on an empty list. */
    | IndexError
    | KeyError(key: string)
      /** Whatever the inherited regular-expression substitution raises. */
    | SubstitutionFailed
  {
    /** The two exceptions that derive from HatchRegexCommitException. */
    predicate IsPluginError() {
      GitNotAvailable? || WorkingDirectoryIsDirty?
    }
  }
}

=== FILE: git.dfy ===
/** The `Git` adapter class: each class method is a function from the environment and
    the trace so far to the events it causes and its return value or exception. */
module Git {
  import opened Wrappers
  import opened Text
  import opened Errors
  import opened Values
  import opened Process
  import opened Describe

  const ProbeArgv: seq<string> := ["git", "rev-parse", "--git-dir"]
  const StatusArgv: seq<string> := ["git", "status", "--porcelain"]
  const CommitCommand: seq<string> := ["git", "commit", "-F"]
  const RefreshArgv: seq<string> := ["git", "update-index", "--refresh"]
  const DescribeArgv: seq<string> :=
    ["git", "describe", "--dirty", "--tags", "--long", "--abbrev=40", "--match=v*"]

  /** The `errno` values (Linux numbering) for which the probe reports git as unusable
      instead of raising. */
  const ENOENT := 2
  const EACCES := 13
  const ENOTDIR := 20

  /** A call that returns nothing: only whether it raised matters. */
  function Done<T>(r: Result<T, Error>): Result<(), Error>
  {
    if r.Success? then Success(()) else Failure(r.error)
  }

  // ---------------------------------------------------------------- is_usable

  /** The three-way decision of `is_usable` on the outcome of `git rev-parse --git-dir`:
      usable exactly when it exits with 0; not usable when it exits otherwise or
      cannot be started for lack of the program, of permission or of a directory;
      any other start-up error propagates unchanged. */
  function ClassifyProbe(o: Outcome): (r: Result<bool, Error>)
    ensures r == Success(true) <==> o.Exited? && o.code == 0
    ensures r == Success(false) <==>
      (o.Exited? && o.code != 0) || (o.Raised? && o.errno in {ENOENT, EACCES, ENOTDIR})
    ensures r.Failure? ==> o.Raised? && r.error == OSError(o.errno)
  {
    match o
    case Exited(code, _) => Success(code == 0)
    case Raised(errno) =>
      if errno == ENOENT || errno == EACCES || errno == ENOTDIR then Success(false)
      else Failure(OSError(errno))
  }

  /** `Git.is_usable()`: one probe command; git is usable exactly when it exits with
      0, and only a start-up error other than the three tolerated ones escapes. */
  function IsUsable(env: Env, h: seq<Event>): (r: Step<bool>)
    ensures r.trace == [Run(ProbeArgv)]
    ensures var o := env(h, Run(ProbeArgv));
      r.result.Success? ==> (r.result.value <==> o.Exited? && o.code == 0)
    ensures var o := env(h, Run(ProbeArgv));
      r.result.Failure? <==> o.Raised? && o.errno !in {ENOENT, EACCES, ENOTDIR}
    ensures r.result.Failure? ==> r.result.error == OSError(env(h, Run(ProbeArgv)).errno)
  {
    Step([Run(ProbeArgv)], ClassifyProbe(env(h, Run(ProbeArgv))))
  }

  // ---------------------------------------------------------- assert_nondirty

  /** A porcelain status line for an untracked file: `??` once stripped. */
  predicate IsUntracked(line: string) {
    "??" <= Trim(line, AsciiWhitespace)
  }

  /** Every line is an untracked entry. */
  predicate AllUntracked(lines: seq<string>) {
    forall i :: 0 <= i < |lines| ==> IsUntracked(lines[i])
  }

  /** A line the filter keeps: stripped (no whitespace at either end), and not an
      untracked entry. */
  predicate IsKept(line: string) {
    && (line == [] || (line[0] !in AsciiWhitespace && line[|line| - 1] !in AsciiWhitespace))
    && !("??" <= line)
  }

  predicate AllKept(kept: seq<string>) {
    forall i :: 0 <= i < |kept| ==> IsKept(kept[i])
  }

  /** What the filter makes of one line: nothing for an untracked entry, the stripped
      line otherwise. */
  function KeepLine(line: string): (kept: seq<string>)
    ensures kept == [] <==> IsUntracked(line)
    ensures kept != [] ==> kept == [Trim(line, AsciiWhitespace)]
    ensures AllKept(kept)
  {
    var stripped := Trim(line, AsciiWhitespace);
    if "??" <= stripped then []
    else
      assert IsKept(stripped);
      assert [stripped][0] == stripped;
      [stripped]
  }

  lemma AllKeptConcat(a: seq<string>, b: seq<string>)
    requires AllKept(a) && AllKept(b)
    ensures AllKept(a + b)
  {
    forall i | 0 <= i < |a + b| ensures IsKept((a + b)[i]) {
      if i < |a| {
        assert (a + b)[i] == a[i];
      } else {
        assert (a + b)[i] == b[i - |a|];
      }
    }
  }

  lemma AllUntrackedCons(lines: seq<string>)
    requires |lines| > 0
    ensures AllUntracked(lines) <==> IsUntracked(lines[0]) && AllUntracked(lines[1..])
  {
    assert forall i :: 1 <= i < |lines| ==> lines[i] == lines[1..][i - 1];
  }

  /** The status lines that make the tree dirty, stripped, in their original order.
      Every kept line is stripped and not untracked, and nothing is kept exactly when
      every line is an untracked entry. */
  function TrackedLines(lines: seq<string>): (kept: seq<string>)
    ensures |kept| <= |lines|
    ensures AllKept(kept)
    ensures kept == [] <==> AllUntracked(lines)
    decreases |lines|
  {
    if |lines| == 0 then []
    else
      var head := KeepLine(lines[0]);
      var rest := TrackedLines(lines[1..]);
      AllUntrackedCons(lines);
      AllKeptConcat(head, rest);
      head + rest
  }

  /** Filtering distributes over concatenation: each line is judged on its own and
      the kept lines keep their order. */
  lemma {:induction false} TrackedLinesAppend(a: seq<string>, b: seq<string>)
    ensures TrackedLines(a + b) == TrackedLines(a) + TrackedLines(b)
    decreases |a|
  {
    if |a| == 0 {
      assert a + b == b;
    } else {
      assert (a + b)[0] == a[0];
      assert (a + b)[1..] == a[1..] + b;
      TrackedLinesAppend(a[1..], b);
    }
  }

  /** What the filter does to one line: an untracked entry disappears, any other line
      is kept stripped. */
  lemma TrackedLinesSingle(line: string)
    ensures IsUntracked(line) ==> TrackedLines([line]) == []
    ensures !IsUntracked(line) ==> TrackedLines([line]) == [Trim(line, AsciiWhitespace)]
  {
    assert [line][1..] == [];
  }

  /** No line holds a line break. */
  predicate SingleLines(lines: seq<string>) {
    forall i :: 0 <= i < |lines| ==> '\n' !in lines[i]
  }

  lemma SingleLinesConcat(a: seq<string>, b: seq<string>)
    requires SingleLines(a) && SingleLines(b)
    ensures SingleLines(a + b)
  {
    forall i | 0 <= i < |a + b|
      ensures '\n' !in (a + b)[i]
    {
      if i >= |a| {
        assert (a + b)[i] == b[i - |a|];
      }
    }
  }

  lemma KeepLineWhole(line: string)
    requires '\n' !in line
    ensures SingleLines(KeepLine(line))
  {
    var kept := KeepLine(line);
    if kept != [] {
      var t := Trim(line, AsciiWhitespace);
      TrimKeepsAbsent(line, AsciiWhitespace, '\n');
      assert kept == [t];
      assert SingleLines([t]);
    } else {
      assert SingleLines(kept);
    }
  }

  /** The filter keeps whole lines: a line break never appears in what it keeps. */
  lemma {:induction false} TrackedLinesKeepLinesWhole(lines: seq<string>)
    requires SingleLines(lines)
    ensures SingleLines(TrackedLines(lines))
    decreases |lines|
  {
    if |lines| > 0 {
      var head := KeepLine(lines[0]);
      KeepLineWhole(lines[0]);
      assert SingleLines(lines[1..]) by {
        assert forall i :: 0 <= i < |lines| - 1 ==> lines[1..][i] == lines[i + 1];
      }
      TrackedLinesKeepLinesWhole(lines[1..]);
      SingleLinesConcat(head, TrackedLines(lines[1..]));
      assert TrackedLines(lines) == head + TrackedLines(lines[1..]);
    }
  }

  const DirtyPrefix := "Git working directory is not clean:\n"

  function DirtyMessage(kept: seq<string>): string
  {
    DirtyPrefix + Join(kept, '\n')
  }

  /** The dirty message carries exactly the offending lines: after the fixed first line,
      splitting at newlines gives them back. */
  lemma DirtyMessageLists(kept: seq<string>)
    requires |kept| > 0
    requires SingleLines(kept)
    ensures DirtyPrefix <= DirtyMessage(kept)
    ensures Split(DirtyMessage(kept)[|DirtyPrefix|..], '\n') == kept
  {
    assert DirtyMessage(kept)[|DirtyPrefix|..] == Join(kept, '\n');
    SplitJoin(kept, '\n');
  }

  /** `Git.assert_nondirty()`: lists the porcelain status and raises
      WorkingDirectoryIsDirty when a line other than an untracked entry remains. It
      passes exactly when the status command succeeds and every line is untracked,
      and the raised message lists the remaining lines. */
  function AssertNondirty(env: Env, h: seq<Event>): (r: Step<()>)
    ensures r.trace == [Run(StatusArgv)]
    ensures var o := env(h, Run(StatusArgv));
      r.result.Success? <==>
        o.Exited? && o.code == 0 && AllUntracked(SplitLines(o.output))
    ensures var o := env(h, Run(StatusArgv));
      o.Exited? && o.code == 0 && r.result.Failure? ==>
        var kept := TrackedLines(SplitLines(o.output));
        && r.result.error == WorkingDirectoryIsDirty(DirtyMessage(kept))
        && Split(r.result.error.message[|DirtyPrefix|..], '\n') == kept
    ensures var o := env(h, Run(StatusArgv));
      o.Exited? && o.code != 0 ==> r.result == Failure(CalledProcessError(StatusArgv, o.code, o.output))
    ensures var o := env(h, Run(StatusArgv));
      o.Raised? ==> r.result == Failure(OSError(o.errno))
  {
    var status := CheckOutput(env, h, StatusArgv);
    match status.result
    case Failure(e) => Step(status.trace, Failure(e))
    case Success(out) =>
      var kept := TrackedLines(SplitLines(out));
      if |kept| == 0 then Step(status.trace, Success(()))
      else
        TrackedLinesKeepLinesWhole(SplitLines(out));
        DirtyMessageLists(kept);
        Step(status.trace, Failure(WorkingDirectoryIsDirty(DirtyMessage(kept))))
  }

  /** Status output written one entry per line: the check passes exactly when every
      entry is untracked, and otherwise reports exactly the tracked entries. */
  lemma NondirtyOfStatusLines(env: Env, h: seq<Event>, lines: seq<string>)
    requires forall i :: 0 <= i < |lines| ==> '\n' !in lines[i] && '\r' !in lines[i]
    requires env(h, Run(StatusArgv)) == Exited(0, Terminated(lines))
    ensures AssertNondirty(env, h).result.Success? <==> AllUntracked(lines)
    ensures AssertNondirty(env, h).result.Failure? ==>
      AssertNondirty(env, h).result == Failure(WorkingDirectoryIsDirty(DirtyMessage(TrackedLines(lines))))
  {
    SplitLinesTerminated(lines);
  }

  // ------------------------------------------------------------------- commit

  /** The commit command: message from the temporary file, then the extra arguments. */
  function CommitArgv(tmp: string, extra: seq<string>): (argv: seq<string>)
    ensures |argv| == 4 + |extra|
    ensures argv[..3] == CommitCommand && argv[3] == tmp && argv[4..] == extra
  {
    CommitCommand + [tmp] + extra
  }

  /** `Git.commit(message, extra_args)`: the message goes to the temporary file `tmp`,
      the commit command runs with `extra_args or []`, and the file is removed on
      every path, whether the command succeeds, exits non-zero, cannot be started or
      cannot even be built from the arguments. A command failure is raised unchanged. */
  function Commit(env: Env, h: seq<Event>, tmp: string, message: string, extraArgs: Option<seq<Value>>): (r: Step<()>)
    ensures 2 <= |r.trace| <= 3
    ensures r.trace[0] == WriteTemp(tmp, message) && r.trace[|r.trace| - 1] == RemoveTemp(tmp)
    ensures |r.trace| == 2 <==> r.result.Failure? && r.result.error.TypeError?
    ensures |r.trace| == 3 ==>
      && r.trace[1].Run? && |r.trace[1].argv| >= 4 && r.trace[1].argv[..4] == CommitCommand + [tmp]
      && r.result == Done(Completion(r.trace[1].argv, env(h + [r.trace[0]], r.trace[1])))
    ensures var extra := if extraArgs.Some? then extraArgs.value else [];
      |r.trace| == 3 ==>
      && r.trace[1].Run? && |r.trace[1].argv| == 4 + |extra|
      && forall i :: 0 <= i < |extra| ==> extra[i].Str? && r.trace[1].argv[4 + i] == extra[i].s
    ensures var extra := if extraArgs.Some? then extraArgs.value else [];
      (forall i :: 0 <= i < |extra| ==> extra[i].Str?) ==> |r.trace| == 3
    ensures var extra := if extraArgs.Some? then extraArgs.value else [];
      |r.trace| == 2 ==>
        exists i :: 0 <= i < |extra| && !extra[i].Str? && r.result == Failure(TypeError(ArgTypeMessage(extra[i])))
          && forall j :: 0 <= j < i ==> extra[j].Str?
  {
    var extra := if extraArgs.Some? then extraArgs.value else [];
    var write := WriteTemp(tmp, message);
    match ArgWords(extra)
    case Failure(e) => Step([write, RemoveTemp(tmp)], Failure(e))
    case Success(words) =>
      var argv := CommitArgv(tmp, words);
      assert argv[..4] == CommitCommand + [tmp];
      var run := CheckOutput(env, h + [write], argv);
      Step([write] + run.trace + [RemoveTemp(tmp)], Done(run.result))
  }

  /** `None` for the extra arguments behaves as an empty list. */
  lemma CommitWithoutExtraArgs(env: Env, h: seq<Event>, tmp: string, message: string)
    ensures Commit(env, h, tmp, message, None) == Commit(env, h, tmp, message, Some([]))
    ensures Commit(env, h, tmp, message, None).trace[1] == Run(CommitCommand + [tmp])
  {
    assert CommitArgv(tmp, []) == CommitCommand + [tmp];
  }

  // ---------------------------------------------------------- latest_tag_info

  /** `Git.latest_tag_info()`: refresh the index, then describe. If either command exits
      non-zero the result is the empty dictionary (`None`), not an exception; a command
      that cannot be started still raises. A describe that succeeds is parsed, and its
      parse yields a well-formed info or raises. */
  function LatestTagInfo(env: Env, h: seq<Event>): (r: Step<Option<DescribeInfo>>)
    ensures 1 <= |r.trace| <= 2 && r.trace[0] == Run(RefreshArgv)
    ensures |r.trace| == 2 ==> r.trace[1] == Run(DescribeArgv)
    ensures var o := env(h, Run(RefreshArgv));
      o.Exited? && o.code != 0 ==> r == Step([Run(RefreshArgv)], Success(None))
    ensures var o := env(h + [Run(RefreshArgv)], Run(DescribeArgv));
      |r.trace| == 2 && o.Exited? && o.code != 0 ==> r.result == Success(None)
    ensures r.result.Success? && r.result.value.Some? ==>
      && |r.trace| == 2
      && var o := env(h + [Run(RefreshArgv)], Run(DescribeArgv));
      && o.Exited? && o.code == 0
      && ParseDescribe(o.output) == Success(r.result.value.value)
      && WellFormed(r.result.value.value)
    ensures r.result.Failure? ==> r.result.error.OSError? || r.result.error == IndexError || r.result.error.ValueError?
    ensures var o := env(h, Run(RefreshArgv));
      o.Raised? ==> r == Step([Run(RefreshArgv)], Failure(OSError(o.errno)))
    ensures var o := env(h, Run(RefreshArgv));
      o.Exited? && o.code == 0 ==> r.trace == [Run(RefreshArgv), Run(DescribeArgv)]
    ensures var o := env(h + [Run(RefreshArgv)], Run(DescribeArgv));
      |r.trace| == 2 && o.Raised? ==> r.result == Failure(OSError(o.errno))
    ensures var o := env(h + [Run(RefreshArgv)], Run(DescribeArgv));
      |r.trace| == 2 && o.Exited? && o.code == 0 ==>
        r.result == match ParseDescribe(o.output)
                    case Success(info) => Success(Some(info))
                    case Failure(e) => Failure(e)
  {
    var refresh := CheckOutput(env, h, RefreshArgv);
    match refresh.result
    case Failure(e) =>
      Step(refresh.trace, if e.CalledProcessError? then Success(None) else Failure(e))
    case Success(_) =>
      var describe := DescribeStep(env, h + refresh.trace);
      Step(refresh.trace + describe.trace, describe.result)
  }

  /** The describe command inside `latest_tag_info`: a non-zero exit gives `{}`, a
      start-up error propagates, and the output of a successful run is parsed outside
      the `try`, so a parse error propagates too. */
  function DescribeStep(env: Env, h: seq<Event>): (r: Step<Option<DescribeInfo>>)
    ensures r.trace == [Run(DescribeArgv)]
    ensures var o := env(h, Run(DescribeArgv));
      && (o.Exited? && o.code != 0 ==> r.result == Success(None))
      && (o.Raised? ==> r.result == Failure(OSError(o.errno)))
      && (o.Exited? && o.code == 0 ==> r.result == TagInfo(o.output))
  {
    var describe := CheckOutput(env, h, DescribeArgv);
    match describe.result
    case Failure(e) =>
      Step(describe.trace, if e.CalledProcessError? then Success(None) else Failure(e))
    case Success(out) => Step(describe.trace, TagInfo(out))
  }

  /** The dictionary built from a describe output that exited with 0: the parse's
      error propagates, and a parsed info is returned as it is. */
  function TagInfo(out: string): (r: Result<Option<DescribeInfo>, Error>)
    ensures r == match ParseDescribe(out)
                 case Success(info) => Success(Some(info))
                 case Failure(e) => Failure(e)
    ensures r.Success? ==> r.value.Some? && WellFormed(r.value.value)
    ensures r.Failure? ==> r.error == IndexError || r.error.ValueError?
  {
    match ParseDescribe(out)
    case Failure(e) => Failure(e)
    case Success(info) => Success(Some(info))
  }

  // ----------------------------------------------------------------- add_path

  function AddArgv(path: string): seq<string>
  {
    ["git", "add", "--update", path]
  }

  /** `Git.add_path(path)`: stages the tracked changes under `path`. A path that is not
      a string cannot become an argument and raises before any command starts. */
  function AddPath(env: Env, h: seq<Event>, path: Value): (r: Step<()>)
    ensures path.Str? ==> r.trace == [Run(AddArgv(path.s))]
    ensures path.Str? ==> r.result == Done(Completion(AddArgv(path.s), env(h, Run(AddArgv(path.s)))))
    ensures !path.Str? ==> r == Step([], Failure(TypeError(ArgTypeMessage(path))))
  {
    match ArgWord(path)
    case Failure(e) => Step([], Failure(e))
    case Success(p) =>
      var add := CheckOutput(env, h, AddArgv(p));
      Step(add.trace, Done(add.result))
  }

  // ---------------------------------------------------------------------- tag

  /** The tag command: the name, then `--sign` exactly when signing, then
      `--message` and the message exactly when the message is not empty (an empty
      message makes a lightweight tag). */
  function TagArgv(sign: bool, name: string, message: string): (argv: seq<string>)
    ensures |argv| == 3 + (if sign then 1 else 0) + (if message == "" then 0 else 2)
    ensures argv[..3] == ["git", "tag", name]
    ensures sign <==> |argv| > 3 && argv[3] == "--sign"
    ensures message != "" ==> argv[|argv| - 2..] == ["--message", message]
  {
    var command := ["git", "tag", name];
    var signed := if sign then command + ["--sign"] else command;
    if message != "" then signed + ["--message", message] else signed
  }

  /** Reads the tag request back from a tag command. */
  function TagRequest(argv: seq<string>): (bool, string, string)
    requires |argv| >= 3
  {
    (|argv| % 2 == 0, argv[2], if |argv| >= 5 then argv[|argv| - 1] else "")
  }

  /** The tag command loses nothing: the sign flag, the name and the message can all
      be read back from it, so different requests give different commands. */
  lemma TagArgvRoundTrip(sign: bool, name: string, message: string)
    ensures TagRequest(TagArgv(sign, name, message)) == (sign, name, message)
  {
    var argv := TagArgv(sign, name, message);
    assert argv[2] == argv[..3][2];
    if message != "" {
      assert argv[|argv| - 1] == argv[|argv| - 2..][1];
    }
  }

  /** `Git.tag(sign, name, message)`: one tag command. */
  function Tag(env: Env, h: seq<Event>, sign: bool, name: string, message: string): (r: Step<()>)
    ensures r.trace == [Run(TagArgv(sign, name, message))]
    ensures var argv := TagArgv(sign, name, message);
      r.result == Done(Completion(argv, env(h, Run(argv))))
  {
    var tag := CheckOutput(env, h, TagArgv(sign, name, message));
    Step(tag.trace, Done(tag.result))
  }
}

=== FILE: process.dfy ===
/** The boundary with the outside world. Every external effect the plugin has is an
    `Event` in a trace; what the world answers is an `Outcome` chosen by an environment
    oracle that may depend on everything that happened before. */
module Process {
  import opened Wrappers
  import opened Errors
  import opened Values

  datatype Event =
      /** A command started through `subprocess`. */
    | Run(argv: seq<string>)
      /** The inherited regular-expression substitution writing `version` into the file. */
    | Substitute(version: string)
      /** The commit message written to a named temporary file. */
    | WriteTemp(path: string, content: string)
    | RemoveTemp(path: string)

  /** A command either exits with a code and (captured) output, or cannot be started
      and raises an `OSError` with the given `errno`. For a `Substitute` event,
      `Exited(0, _)` means the substitution succeeded. */
  datatype Outcome = Exited(code: int, output: string) | Raised(errno: int)

  /** The environment: given the trace so far and the next event, its outcome. */
  type Env = (seq<Event>, Event) -> Outcome

  /** What a call contributes to the trace, and whether it returned or raised. */
  datatype Step<+T> = Step(trace: seq<Event>, result: Result<T, Error>)

  /** The message of the `TypeError` `subprocess` raises for an argument it cannot
      convert. */
  function ArgTypeMessage(v: Value): string
  {
    "expected" + " str, bytes or os.PathLike object, not " + TypeName(v)
  }

  /** One command-line argument as `subprocess` accepts it: only strings pass. */
  function ArgWord(v: Value): (r: Result<string, Error>)
    ensures r.Success? <==> v.Str?
    ensures r.Success? ==> r.value == v.s
    ensures r.Failure? ==> r.error.TypeError?
  {
    if v.Str? then Success(v.s) else Failure(TypeError(ArgTypeMessage(v)))
  }

  /** A list of arguments: it passes when every element is a string, and then the
      words are those strings in order; otherwise the first non-string is reported. */
  function ArgWords(vs: seq<Value>): (r: Result<seq<string>, Error>)
    ensures r.Success? <==> forall i :: 0 <= i < |vs| ==> vs[i].Str?
    ensures r.Success? ==> |r.value| == |vs| && forall i :: 0 <= i < |vs| ==> r.value[i] == vs[i].s
    ensures r.Failure? ==>
      exists i :: 0 <= i < |vs| && !vs[i].Str? && r.error == TypeError(ArgTypeMessage(vs[i]))
        && forall j :: 0 <= j < i ==> vs[j].Str?
  {
    if |vs| == 0 then Success([])
    else
      match ArgWord(vs[0])
      case Failure(e) => Failure(e)
      case Success(w) =>
        match ArgWords(vs[1..])
        case Failure(e) =>
          assert forall i :: 0 <= i < |vs| - 1 ==> vs[1..][i] == vs[i + 1];
          Failure(e)
        case Success(ws) =>
          assert forall i :: 1 <= i < |vs| ==> vs[i] == vs[1..][i - 1];
          Success([w] + ws)
  }

  /** What `subprocess.check_output` makes of an outcome: the output on exit code 0,
      `CalledProcessError` on any other code, the `OSError` when the command could not
      be started. */
  function Completion(argv: seq<string>, o: Outcome): (r: Result<string, Error>)
    ensures r.Success? <==> o.Exited? && o.code == 0
    ensures r.Success? ==> r.value == o.output
    ensures r.Failure? && o.Exited? ==> r.error == CalledProcessError(argv, o.code, o.output)
    ensures r.Failure? && o.Raised? ==> r.error == OSError(o.errno)
  {
    match o
    case Raised(errno) => Failure(OSError(errno))
    case Exited(code, output) =>
      if code == 0 then Success(output) else Failure(CalledProcessError(argv, code, output))
  }

  /** `subprocess.check_output(argv)` run after history `h`. */
  function CheckOutput(env: Env, h: seq<Event>, argv: seq<string>): (r: Step<string>)
    ensures r.trace == [Run(argv)]
  {
    Step([Run(argv)], Completion(argv, env(h, Run(argv))))
  }
}

=== FILE: set_version_properties.dfy ===
/** What a run of `set_version` does, stated against an independent description of it:
    the configuration resolved up front into `Settings`, and the `Plan` of events those
    settings call for. A run never leaves its plan, completes it whenever it
    succeeds, and completes it whenever every command succeeds and the configuration
    is well typed. */
module SetVersionProperties {
  import opened Wrappers
  import opened Text
  import opened Errors
  import opened Values
  import opened Process
  import opened Git
  import opened VersionSource

  datatype CommitSettings = CommitSettings(path: string, messageTemplate: string, extraArgs: seq<string>)
  datatype TagSettings = TagSettings(nameTemplate: string, messageTemplate: string, sign: bool)

  /** The configuration as a run uses it: `None` for a step that is switched off. */
  datatype Settings = Settings(checkDirty: bool, commit: Option<CommitSettings>, tag: Option<TagSettings>)

  // ---------------------------------------------------------------- settings

  /** The commit options, checked in the order the run checks them. The options of a
      switched-off commit are never read. */
  function ResolveCommit(cfg: Config): Result<Option<CommitSettings>, Error>
  {
    var commit :- ConfigCommit(cfg);
    if !commit then Success(None)
    else
      var path :- ArgWord(PathValue(cfg));
      var template :- ConfigCommitMessage(cfg);
      var extra :- GetExtraArgs(cfg);
      var words :- ArgWords(extra);
      Success(Some(CommitSettings(path, template, words)))
  }

  function ResolveTag(cfg: Config): Result<Option<TagSettings>, Error>
  {
    var tag :- ConfigTag(cfg);
    if !tag then Success(None)
    else
      var name :- ConfigTagName(cfg);
      var message :- ConfigTagMessage(cfg);
      var sign :- ConfigTagSign(cfg);
      Success(Some(TagSettings(name, message, sign)))
  }

  function Resolve(cfg: Config): Result<Settings, Error>
  {
    var check :- ConfigCheckDirty(cfg);
    var commit :- ResolveCommit(cfg);
    var tag :- ResolveTag(cfg);
    Success(Settings(check, commit, tag))
  }

  // -------------------------------------------------------------------- plan

  function DirtyEvents(check: bool): seq<Event>
  {
    if check then [Run(ProbeArgv), Run(StatusArgv)] else []
  }

  function StageEvents(path: string): seq<Event>
  {
    [Run(ProbeArgv), Run(AddArgv(path))]
  }

  function CommitFileEvents(c: CommitSettings, ctx: Context, tmp: string): seq<Event>
  {
    [Run(ProbeArgv), WriteTemp(tmp, Format(c.messageTemplate, ctx)), Run(CommitArgv(tmp, c.extraArgs)), RemoveTemp(tmp)]
  }

  /** Probe, stage, probe again, then the commit with its temporary message file. */
  function CommitEvents(commit: Option<CommitSettings>, ctx: Context, tmp: string): seq<Event>
  {
    match commit
    case None => []
    case Some(c) => StageEvents(c.path) + CommitFileEvents(c, ctx, tmp)
  }

  function TagEvents(tag: Option<TagSettings>, ctx: Context): seq<Event>
  {
    match tag
    case None => []
    case Some(t) =>
      [Run(ProbeArgv), Run(TagArgv(t.sign, Format(t.nameTemplate, ctx), Format(t.messageTemplate, ctx)))]
  }

  /** Every event a run with settings `s` performs when nothing fails. */
  function Plan(s: Settings, ctx: Context, tmp: string): seq<Event>
  {
    DirtyEvents(s.checkDirty) + [Substitute(ctx.newVersion)] + CommitEvents(s.commit, ctx, tmp) + TagEvents(s.tag, ctx)
  }

  /** A step keeps to `plan`: it performs a prefix of it, and all of it if it returns. */
  predicate Follows<T>(step: Step<T>, plan: seq<Event>) {
    step.trace <= plan && (step.result.Success? ==> step.trace == plan)
  }

  /** The environment in which every command exits 0 with no output. */
  ghost predicate AllOk(env: Env) {
    forall h, e :: env(h, e) == Exited(0, [])
  }

  // ---------------------------------------------------------------- sequencing

  lemma PrefixAppend(a: seq<Event>, b: seq<Event>, c: seq<Event>)
    requires b <= c
    ensures a + b <= a + c
  {
    assert (a + c)[..|a + b|] == a + b;
  }

  lemma PrefixOfLonger(a: seq<Event>, b: seq<Event>, c: seq<Event>)
    requires a <= b
    ensures a <= b + c
  {
    assert (b + c)[..|b|] == b;
    assert (b + c)[..|a|] == b[..|a|];
  }

  /** Sequencing two steps that keep to their plans keeps to the joined plan. */
  lemma ThenFollows<T>(first: Step<()>, next: Step<T>, p1: seq<Event>, p2: seq<Event>)
    requires Follows(first, p1)
    requires first.result.Success? ==> Follows(next, p2)
    ensures Follows(Then(first, next), p1 + p2)
  {
    if first.result.Failure? {
      PrefixOfLonger(first.trace, p1, p2);
    } else {
      PrefixAppend(p1, next.trace, p2);
    }
  }

  // ------------------------------------------------------------ stage plans

  lemma DirtyStageFollowsPlan(cfg: Config, env: Env, h: seq<Event>)
    ensures var r := DirtyStage(cfg, env, h);
      r.result.Success? ==> ConfigCheckDirty(cfg).Success?
    ensures ConfigCheckDirty(cfg).Success? ==>
      Follows(DirtyStage(cfg, env, h), DirtyEvents(ConfigCheckDirty(cfg).value))
  {
  }

  lemma StageFileFollowsPlan(cfg: Config, env: Env, h: seq<Event>)
    requires PathValue(cfg).Str?
    ensures Follows(StageFile(cfg, env, h), StageEvents(PathValue(cfg).s))
  {
  }

  /** What the commit options resolve to, read back off the configuration. */
  lemma ResolvedCommit(cfg: Config)
    requires ResolveCommit(cfg).Success? && ResolveCommit(cfg).value.Some?
    ensures var c := ResolveCommit(cfg).value.value;
      && ConfigCommit(cfg) == Success(true)
      && PathValue(cfg) == Str(c.path)
      && ConfigCommitMessage(cfg) == Success(c.messageTemplate)
      && GetExtraArgs(cfg).Success?
      && ArgWords(GetExtraArgs(cfg).value) == Success(c.extraArgs)
  {
  }

  lemma CommitFileFollowsPlan(cfg: Config, ctx: Context, tmp: string, env: Env, h: seq<Event>)
    requires ResolveCommit(cfg).Success? && ResolveCommit(cfg).value.Some?
    ensures Follows(CommitFile(cfg, ctx, tmp, env, h), CommitFileEvents(ResolveCommit(cfg).value.value, ctx, tmp))
  {
    var c := ResolveCommit(cfg).value.value;
    ResolvedCommit(cfg);
    var gate := UseGit(env, h);
    var plan := CommitFileEvents(c, ctx, tmp);
    if gate.result.Success? {
      var committed := Commit(env, h + gate.trace, tmp, Format(c.messageTemplate, ctx), Some(GetExtraArgs(cfg).value));
      assert committed.trace == plan[1..];
      assert Then(gate, committed).trace == plan;
    } else {
      assert gate.trace == plan[..1];
    }
  }

  /** The commit step succeeds only with well-typed commit options. */
  lemma CommitStageResolved(cfg: Config, ctx: Context, tmp: string, env: Env, h: seq<Event>)
    ensures CommitStage(cfg, ctx, tmp, env, h).result.Success? ==> ResolveCommit(cfg).Success?
  {
    if ConfigCommit(cfg) == Success(true) {
      var staged := StageFile(cfg, env, h);
      var committing := CommitFile(cfg, ctx, tmp, env, h + staged.trace);
      if staged.result.Success? && committing.result.Success? {
        assert PathValue(cfg).Str?;
        var gate := UseGit(env, h + staged.trace);
        var extra := GetExtraArgs(cfg).value;
        var committed := Commit(env, h + staged.trace + gate.trace, tmp, Format(ConfigCommitMessage(cfg).value, ctx), Some(extra));
        assert committed.result.Success?;
        assert ArgWords(extra).Success?;
      }
    }
  }

  lemma CommitStageFollowsPlan(cfg: Config, ctx: Context, tmp: string, env: Env, h: seq<Event>)
    requires ResolveCommit(cfg).Success?
    ensures Follows(CommitStage(cfg, ctx, tmp, env, h), CommitEvents(ResolveCommit(cfg).value, ctx, tmp))
  {
    if ResolveCommit(cfg).value.Some? {
      var c := ResolveCommit(cfg).value.value;
      ResolvedCommit(cfg);
      var staged := StageFile(cfg, env, h);
      StageFileFollowsPlan(cfg, env, h);
      CommitFileFollowsPlan(cfg, ctx, tmp, env, h + staged.trace);
      ThenFollows(staged, CommitFile(cfg, ctx, tmp, env, h + staged.trace), StageEvents(c.path), CommitFileEvents(c, ctx, tmp));
    }
  }

  /** What the tag options resolve to, read back off the configuration. */
  lemma ResolvedTag(cfg: Config)
    requires ResolveTag(cfg).Success? && ResolveTag(cfg).value.Some?
    ensures var t := ResolveTag(cfg).value.value;
      && ConfigTag(cfg) == Success(true)
      && ConfigTagName(cfg) == Success(t.nameTemplate)
      && ConfigTagMessage(cfg) == Success(t.messageTemplate)
      && ConfigTagSign(cfg) == Success(t.sign)
  {
  }

  /** The tag step succeeds only with well-typed tag options. */
  lemma TagStageResolved(cfg: Config, ctx: Context, env: Env, h: seq<Event>)
    ensures TagStage(cfg, ctx, env, h).result.Success? ==> ResolveTag(cfg).Success?
  {
  }

  lemma TagStageFollowsPlan(cfg: Config, ctx: Context, env: Env, h: seq<Event>)
    requires ResolveTag(cfg).Success?
    ensures Follows(TagStage(cfg, ctx, env, h), TagEvents(ResolveTag(cfg).value, ctx))
  {
    if ResolveTag(cfg).value.Some? {
      var t := ResolveTag(cfg).value.value;
      ResolvedTag(cfg);
      var plan := TagEvents(Some(t), ctx);
      var gate := UseGit(env, h);
      if gate.result.Success? {
        assert TagStage(cfg, ctx, env, h).trace == plan;
      } else {
        assert TagStage(cfg, ctx, env, h).trace == plan[..1];
      }
    }
  }

  lemma SubstitutionFollowsPlan(env: Env, h: seq<Event>, version: string)
    ensures Follows(Substitution(env, h, version), [Substitute(version)])
  {
  }

  // ---------------------------------------------------------- run plans

  /** A run that succeeds had the version key and a well-typed configuration. */
  lemma SuccessIsResolved(cfg: Config, newVersion: string, versionData: map<string, string>, tmp: string, env: Env)
    ensures SetVersion(cfg, newVersion, versionData, tmp, env).result.Success? ==>
      "version" in versionData && Resolve(cfg).Success?
  {
    var checked := DirtyStage(cfg, env, []);
    var substituted := Then(checked, Substitution(env, checked.trace, newVersion));
    DirtyStageFollowsPlan(cfg, env, []);
    if substituted.result.Success? && "version" in versionData {
      var ctx := Context(versionData["version"], newVersion);
      var committed := Then(substituted, CommitStage(cfg, ctx, tmp, env, substituted.trace));
      CommitStageResolved(cfg, ctx, tmp, env, substituted.trace);
      TagStageResolved(cfg, ctx, env, committed.trace);
    }
  }

  /** Whatever the environment answers, a run with a well-typed configuration performs
      a prefix of its plan, no command outside it and none out of order, and the whole
      plan when it succeeds. */
  lemma RunFollowsPlan(cfg: Config, newVersion: string, versionData: map<string, string>, tmp: string, env: Env)
    requires Resolve(cfg).Success? && "version" in versionData
    ensures Follows(SetVersion(cfg, newVersion, versionData, tmp, env),
                    Plan(Resolve(cfg).value, Context(versionData["version"], newVersion), tmp))
  {
    var s := Resolve(cfg).value;
    var ctx := Context(versionData["version"], newVersion);
    var checked := DirtyStage(cfg, env, []);
    DirtyStageFollowsPlan(cfg, env, []);
    var substitution := Substitution(env, checked.trace, newVersion);
    SubstitutionFollowsPlan(env, checked.trace, newVersion);
    var substituted := Then(checked, substitution);
    var head := DirtyEvents(s.checkDirty) + [Substitute(newVersion)];
    ThenFollows(checked, substitution, DirtyEvents(s.checkDirty), [Substitute(newVersion)]);
    var staged := CommitStage(cfg, ctx, tmp, env, substituted.trace);
    CommitStageFollowsPlan(cfg, ctx, tmp, env, substituted.trace);
    var committed := Then(substituted, staged);
    var middle := head + CommitEvents(s.commit, ctx, tmp);
    ThenFollows(substituted, staged, head, CommitEvents(s.commit, ctx, tmp));
    var tagged := TagStage(cfg, ctx, env, committed.trace);
    TagStageFollowsPlan(cfg, ctx, env, committed.trace);
    ThenFollows(committed, tagged, middle, TagEvents(s.tag, ctx));
  }

  /** A run that succeeds performed exactly the plan of its configuration. */
  lemma SuccessFollowsPlan(cfg: Config, newVersion: string, versionData: map<string, string>, tmp: string, env: Env)
    ensures var r := SetVersion(cfg, newVersion, versionData, tmp, env);
      r.result.Success? ==>
        && "version" in versionData
        && Resolve(cfg).Success?
        && r.trace == Plan(Resolve(cfg).value, Context(versionData["version"], newVersion), tmp)
  {
    SuccessIsResolved(cfg, newVersion, versionData, tmp, env);
    if SetVersion(cfg, newVersion, versionData, tmp, env).result.Success? {
      RunFollowsPlan(cfg, newVersion, versionData, tmp, env);
    }
  }

  // -------------------------------------------------------- all commands ok

  lemma UseGitAllOk(env: Env, h: seq<Event>)
    requires AllOk(env)
    ensures UseGit(env, h).result.Success?
  {
    assert env(h, Run(ProbeArgv)) == Exited(0, []);
  }

  lemma DirtyStageAllOk(cfg: Config, env: Env, h: seq<Event>)
    requires AllOk(env)
    ensures DirtyStage(cfg, env, h).result == if ConfigCheckDirty(cfg).Success? then Success(()) else Failure(ConfigCheckDirty(cfg).error)
  {
    UseGitAllOk(env, h);
    assert env(h + [Run(ProbeArgv)], Run(StatusArgv)) == Exited(0, []);
  }

  lemma StageFileAllOk(cfg: Config, env: Env, h: seq<Event>)
    requires AllOk(env) && PathValue(cfg).Str?
    ensures StageFile(cfg, env, h).result.Success?
  {
    UseGitAllOk(env, h);
    assert env(h + [Run(ProbeArgv)], Run(AddArgv(PathValue(cfg).s))) == Exited(0, []);
  }

  lemma CommitAllOk(env: Env, h: seq<Event>, tmp: string, message: string, extra: seq<Value>)
    requires AllOk(env) && ArgWords(extra).Success?
    ensures Commit(env, h, tmp, message, Some(extra)).result.Success?
  {
    var r := Commit(env, h, tmp, message, Some(extra));
    assert env(h + [r.trace[0]], r.trace[1]) == Exited(0, []);
  }

  lemma CommitStageAllOk(cfg: Config, ctx: Context, tmp: string, env: Env, h: seq<Event>)
    requires AllOk(env)
    ensures CommitStage(cfg, ctx, tmp, env, h).result
         == if ResolveCommit(cfg).Success? then Success(()) else Failure(ResolveCommit(cfg).error)
  {
    if ConfigCommit(cfg) == Success(true) && PathValue(cfg).Str? {
      var staged := StageFile(cfg, env, h);
      StageFileAllOk(cfg, env, h);
      var h2 := h + staged.trace;
      UseGitAllOk(env, h2);
      if ConfigCommitMessage(cfg).Success? && GetExtraArgs(cfg).Success? && ArgWords(GetExtraArgs(cfg).value).Success? {
        var message := Format(ConfigCommitMessage(cfg).value, ctx);
        CommitAllOk(env, h2 + [Run(ProbeArgv)], tmp, message, GetExtraArgs(cfg).value);
      }
    }
  }

  lemma TagStageAllOk(cfg: Config, ctx: Context, env: Env, h: seq<Event>)
    requires AllOk(env)
    ensures TagStage(cfg, ctx, env, h).result
         == if ResolveTag(cfg).Success? then Success(()) else Failure(ResolveTag(cfg).error)
  {
    UseGitAllOk(env, h);
    if ResolveTag(cfg).Success? && ResolveTag(cfg).value.Some? {
      var t := ResolveTag(cfg).value.value;
      var argv := TagArgv(t.sign, Format(t.nameTemplate, ctx), Format(t.messageTemplate, ctx));
      assert env(h + [Run(ProbeArgv)], Run(argv)) == Exited(0, []);
    }
  }

  /** When every command succeeds, the run succeeds exactly when the configuration is
      well typed, and then performs its whole plan; otherwise it raises the
      configuration's first type error. */
  lemma AllOkRunsPlan(cfg: Config, newVersion: string, versionData: map<string, string>, tmp: string, env: Env)
    requires AllOk(env) && "version" in versionData
    ensures var r := SetVersion(cfg, newVersion, versionData, tmp, env);
      Resolve(cfg).Success? ==>
        r == Step(Plan(Resolve(cfg).value, Context(versionData["version"], newVersion), tmp), Success(()))
    ensures var r := SetVersion(cfg, newVersion, versionData, tmp, env);
      Resolve(cfg).Failure? ==> r.result == Failure(Resolve(cfg).error)
  {
    var ctx := Context(versionData["version"], newVersion);
    var checked := DirtyStage(cfg, env, []);
    DirtyStageAllOk(cfg, env, []);
    if checked.result.Success? {
      assert env(checked.trace, Substitute(newVersion)) == Exited(0, []);
      var substituted := Then(checked, Substitution(env, checked.trace, newVersion));
      var staged := CommitStage(cfg, ctx, tmp, env, substituted.trace);
      CommitStageAllOk(cfg, ctx, tmp, env, substituted.trace);
      if staged.result.Success? {
        var committed := Then(substituted, staged);
        TagStageAllOk(cfg, ctx, env, committed.trace);
      }
    }
    if Resolve(cfg).Success? {
      RunFollowsPlan(cfg, newVersion, versionData, tmp, env);
    }
  }

  // ----------------------------------------------------------------- gating

  /** The commands of a trace, in order. */
  function Commands(trace: seq<Event>): (commands: seq<seq<string>>)
    ensures |commands| <= |trace|
  {
    if |trace| == 0 then []
    else (if trace[0].Run? then [trace[0].argv] else []) + Commands(trace[1..])
  }

  lemma {:induction false} CommandsAppend(a: seq<Event>, b: seq<Event>)
    ensures Commands(a + b) == Commands(a) + Commands(b)
    decreases |a|
  {
    if |a| == 0 {
      assert a + b == b;
    } else {
      var head := if a[0].Run? then [a[0].argv] else [];
      assert (a + b)[0] == a[0];
      assert (a + b)[1..] == a[1..] + b;
      CommandsAppend(a[1..], b);
      assert head + (Commands(a[1..]) + Commands(b)) == (head + Commands(a[1..])) + Commands(b);
    }
  }

  /** Every git command other than the probe comes right after a probe: the plugin
      never runs git without first asking whether git is usable. */
  predicate Gated(commands: seq<seq<string>>) {
    forall i :: 0 <= i < |commands| && commands[i] != ProbeArgv ==> 0 < i && commands[i - 1] == ProbeArgv
  }

  lemma GatedConcat(a: seq<seq<string>>, b: seq<seq<string>>)
    requires Gated(a) && Gated(b)
    ensures Gated(a + b)
  {
    forall i | 0 <= i < |a + b| && (a + b)[i] != ProbeArgv
      ensures 0 < i && (a + b)[i - 1] == ProbeArgv
    {
      if i >= |a| {
        assert (a + b)[i] == b[i - |a|];
        assert (a + b)[i - 1] == b[i - |a| - 1];
      } else {
        assert (a + b)[i] == a[i];
        assert (a + b)[i - 1] == a[i - 1];
      }
    }
  }

  /** Sequencing two gated steps is gated. */
  lemma ThenGated<T>(first: Step<()>, next: Step<T>)
    requires Gated(Commands(first.trace)) && Gated(Commands(next.trace))
    ensures Gated(Commands(Then(first, next).trace))
  {
    CommandsAppend(first.trace, next.trace);
    GatedConcat(Commands(first.trace), Commands(next.trace));
  }

  /** A probe followed by at most one command is gated. */
  lemma ProbeThen(op: seq<Event>)
    requires |Commands(op)| <= 1
    ensures Gated(Commands([Run(ProbeArgv)] + op))
  {
    CommandsAppend([Run(ProbeArgv)], op);
    assert Commands([Run(ProbeArgv)]) == [ProbeArgv];
  }

  lemma ProbeGated()
    ensures Gated(Commands([Run(ProbeArgv)]))
  {
    ProbeThen([]);
    assert [Run(ProbeArgv)] + [] == [Run(ProbeArgv)];
  }

  /** A commit issues at most one command between writing and removing its file. */
  lemma CommitCommands(env: Env, h: seq<Event>, tmp: string, message: string, extra: seq<Value>)
    ensures |Commands(Commit(env, h, tmp, message, Some(extra)).trace)| <= 1
  {
    var t := Commit(env, h, tmp, message, Some(extra)).trace;
    assert Commands([t[|t| - 1]]) == [];
    if |t| == 3 {
      assert t[1..] == [t[1], t[2]];
      assert [t[1], t[2]][1..] == [t[2]];
    } else {
      assert t[1..] == [t[1]];
    }
  }

  lemma DirtyStageGated(cfg: Config, env: Env, h: seq<Event>)
    ensures Gated(Commands(DirtyStage(cfg, env, h).trace))
  {
    if ConfigCheckDirty(cfg) == Success(true) {
      ProbeGated();
      ProbeThen([Run(StatusArgv)]);
    }
  }

  lemma StageFileGated(cfg: Config, env: Env, h: seq<Event>)
    ensures Gated(Commands(StageFile(cfg, env, h).trace))
  {
    ProbeGated();
    ProbeThen(AddPath(env, h + [Run(ProbeArgv)], PathValue(cfg)).trace);
  }

  lemma CommitFileGated(cfg: Config, ctx: Context, tmp: string, env: Env, h: seq<Event>)
    ensures Gated(Commands(CommitFile(cfg, ctx, tmp, env, h).trace))
  {
    ProbeGated();
    if ConfigCommitMessage(cfg).Success? && GetExtraArgs(cfg).Success? {
      var message := Format(ConfigCommitMessage(cfg).value, ctx);
      var committed := Commit(env, h + [Run(ProbeArgv)], tmp, message, Some(GetExtraArgs(cfg).value));
      CommitCommands(env, h + [Run(ProbeArgv)], tmp, message, GetExtraArgs(cfg).value);
      ProbeThen(committed.trace);
    }
  }

  lemma CommitStageGated(cfg: Config, ctx: Context, tmp: string, env: Env, h: seq<Event>)
    ensures Gated(Commands(CommitStage(cfg, ctx, tmp, env, h).trace))
  {
    if ConfigCommit(cfg) == Success(true) {
      var staged := StageFile(cfg, env, h);
      StageFileGated(cfg, env, h);
      CommitFileGated(cfg, ctx, tmp, env, h + staged.trace);
      ThenGated(staged, CommitFile(cfg, ctx, tmp, env, h + staged.trace));
    }
  }

  lemma TagStageGated(cfg: Config, ctx: Context, env: Env, h: seq<Event>)
    ensures Gated(Commands(TagStage(cfg, ctx, env, h).trace))
  {
    ProbeGated();
    if ResolveTag(cfg).Success? && ResolveTag(cfg).value.Some? {
      var t := ResolveTag(cfg).value.value;
      ProbeThen([Run(TagArgv(t.sign, Format(t.nameTemplate, ctx), Format(t.messageTemplate, ctx)))]);
    }
  }

  /** Whatever the configuration and the environment, every git command a run issues
      other than the probe is issued right after a probe. */
  lemma RunIsGated(cfg: Config, newVersion: string, versionData: map<string, string>, tmp: string, env: Env)
    ensures Gated(Commands(SetVersion(cfg, newVersion, versionData, tmp, env).trace))
  {
    var checked := DirtyStage(cfg, env, []);
    DirtyStageGated(cfg, env, []);
    var substitution := Substitution(env, checked.trace, newVersion);
    assert Commands([Substitute(newVersion)]) == [];
    ThenGated(checked, substitution);
    var substituted := Then(checked, substitution);
    if "version" in versionData {
      var ctx := Context(versionData["version"], newVersion);
      var staged := CommitStage(cfg, ctx, tmp, env, substituted.trace);
      CommitStageGated(cfg, ctx, tmp, env, substituted.trace);
      ThenGated(substituted, staged);
      var committed := Then(substituted, staged);
      TagStageGated(cfg, ctx, env, committed.trace);
      ThenGated(committed, TagStage(cfg, ctx, env, committed.trace));
    }
  }

  // ------------------------------------------------------------ dirty check

  /** How every run starts: the dirty stage, then the substitution if that stage
      returned; a failing dirty stage ends the run with its error. */
  lemma RunStart(cfg: Config, newVersion: string, versionData: map<string, string>, tmp: string, env: Env)
    ensures var checked := DirtyStage(cfg, env, []);
      var r := SetVersion(cfg, newVersion, versionData, tmp, env);
      && (checked.result.Failure? ==> r.trace == checked.trace && r.result == Failure(checked.result.error))
      && (checked.result.Success? ==> checked.trace + [Substitute(newVersion)] <= r.trace)
  {
    var checked := DirtyStage(cfg, env, []);
    var substituted := Then(checked, Substitution(env, checked.trace, newVersion));
    if checked.result.Success? && substituted.result.Success? && "version" in versionData {
      var ctx := Context(versionData["version"], newVersion);
      var staged := CommitStage(cfg, ctx, tmp, env, substituted.trace);
      var committed := Then(substituted, staged);
      PrefixOfLonger(substituted.trace, substituted.trace, staged.trace);
      PrefixOfLonger(substituted.trace, committed.trace, TagStage(cfg, ctx, env, committed.trace).trace);
    }
  }

  /** The dirty stage holds no substitution. */
  lemma NoSubstitutionWhileChecking(cfg: Config, env: Env, h: seq<Event>, version: string)
    ensures Substitute(version) !in DirtyStage(cfg, env, h).trace
  {
  }

  /** The situation the dirty check reports: the check is on, git is usable and the
      status command exits with 0 listing a line that is not an untracked entry. */
  predicate DirtyTree(cfg: Config, env: Env) {
    var probe := env([], Run(ProbeArgv));
    var status := env([Run(ProbeArgv)], Run(StatusArgv));
    && ConfigCheckDirty(cfg) == Success(true)
    && probe.Exited? && probe.code == 0
    && status.Exited? && status.code == 0 && !AllUntracked(SplitLines(status.output))
  }

  /** The message the dirty check raises for a status output. */
  function DirtyReport(status: string): string
  {
    DirtyMessage(TrackedLines(SplitLines(status)))
  }

  /** The dirty stage raises WorkingDirectoryIsDirty exactly on a dirty tree, and then
      right after the probe and the status command, listing the tracked lines. */
  lemma DirtyStageDirty(cfg: Config, env: Env)
    ensures var r := DirtyStage(cfg, env, []);
      r.result.Failure? && r.result.error.WorkingDirectoryIsDirty? <==> DirtyTree(cfg, env)
    ensures DirtyTree(cfg, env) ==>
      DirtyStage(cfg, env, []) == Step([Run(ProbeArgv), Run(StatusArgv)], Failure(WorkingDirectoryIsDirty(DirtyReport(env([Run(ProbeArgv)], Run(StatusArgv)).output))))
  {
    assert [] + [Run(ProbeArgv)] == [Run(ProbeArgv)];
  }

  /** A dirty working tree stops the run after the probe and the status command:
      the file is not touched and nothing is committed or tagged. The run raises
      WorkingDirectoryIsDirty exactly when the tree is dirty. */
  lemma DirtyStopsRun(cfg: Config, newVersion: string, versionData: map<string, string>, tmp: string, env: Env)
    ensures var r := SetVersion(cfg, newVersion, versionData, tmp, env);
      r.result.Failure? && r.result.error.WorkingDirectoryIsDirty? ==>
        r.trace == [Run(ProbeArgv), Run(StatusArgv)]
    ensures var r := SetVersion(cfg, newVersion, versionData, tmp, env);
      r.result.Failure? && r.result.error.WorkingDirectoryIsDirty? <==> DirtyTree(cfg, env)
    ensures DirtyTree(cfg, env) ==>
      SetVersion(cfg, newVersion, versionData, tmp, env)
        == Step([Run(ProbeArgv), Run(StatusArgv)], Failure(WorkingDirectoryIsDirty(DirtyReport(env([Run(ProbeArgv)], Run(StatusArgv)).output))))
  {
    DirtyStageDirty(cfg, env);
    RunStart(cfg, newVersion, versionData, tmp, env);
  }

  /** The run raises the error of the first stage that fails, after the events of the
      stages before it; a stage that returns hands over to the next one. */
  lemma RunRaisesFirstError(cfg: Config, newVersion: string, versionData: map<string, string>, tmp: string, env: Env)
    ensures var checked := DirtyStage(cfg, env, []);
      var r := SetVersion(cfg, newVersion, versionData, tmp, env);
      checked.result.Success? && Substitution(env, checked.trace, newVersion).result.Failure? ==>
        r == Step(checked.trace + [Substitute(newVersion)], Failure(SubstitutionFailed))
    ensures var checked := DirtyStage(cfg, env, []);
      var r := SetVersion(cfg, newVersion, versionData, tmp, env);
      checked.result.Success? && Substitution(env, checked.trace, newVersion).result.Success?
      && "version" !in versionData ==>
        r == Step(checked.trace + [Substitute(newVersion)], Failure(KeyError("version")))
    ensures var checked := DirtyStage(cfg, env, []);
      var h := checked.trace + [Substitute(newVersion)];
      var r := SetVersion(cfg, newVersion, versionData, tmp, env);
      checked.result.Success? && Substitution(env, checked.trace, newVersion).result.Success?
      && "version" in versionData ==>
        var ctx := Context(versionData["version"], newVersion);
        var committed := CommitStage(cfg, ctx, tmp, env, h);
        && (committed.result.Failure? ==> r == Step(h + committed.trace, committed.result))
        && (committed.result.Success? ==>
              var tagged := TagStage(cfg, ctx, env, h + committed.trace);
              r == Step(h + committed.trace + tagged.trace, tagged.result))
  {
  }

  /** A passed dirty check consists of the probe and a status listing nothing but
      untracked files. */
  lemma CheckPassed(cfg: Config, env: Env)
    requires ConfigCheckDirty(cfg) == Success(true)
    requires DirtyStage(cfg, env, []).result.Success?
    ensures DirtyStage(cfg, env, []).trace == [Run(ProbeArgv), Run(StatusArgv)]
    ensures var o := env([Run(ProbeArgv)], Run(StatusArgv));
      o.Exited? && o.code == 0 && AllUntracked(SplitLines(o.output))
  {
    assert [] + [Run(ProbeArgv)] == [Run(ProbeArgv)];
    assert AssertNondirty(env, [Run(ProbeArgv)]).result.Success?;
  }

  /** With the check on, the version is substituted only after the probe and a status
      listing nothing but untracked files. */
  lemma CleanBeforeSubstitution(cfg: Config, newVersion: string, versionData: map<string, string>, tmp: string, env: Env)
    requires ConfigCheckDirty(cfg) == Success(true)
    ensures var r := SetVersion(cfg, newVersion, versionData, tmp, env);
      Substitute(newVersion) in r.trace ==>
        && r.trace[..3] == [Run(ProbeArgv), Run(StatusArgv), Substitute(newVersion)]
        && var o := env([Run(ProbeArgv)], Run(StatusArgv));
        && o.Exited? && o.code == 0
        && AllUntracked(SplitLines(o.output))
  {
    var checked := DirtyStage(cfg, env, []);
    var r := SetVersion(cfg, newVersion, versionData, tmp, env);
    RunStart(cfg, newVersion, versionData, tmp, env);
    NoSubstitutionWhileChecking(cfg, env, [], newVersion);
    if checked.result.Success? {
      CheckPassed(cfg, env);
      var start := [Run(ProbeArgv), Run(StatusArgv), Substitute(newVersion)];
      assert checked.trace + [Substitute(newVersion)] == start;
      assert r.trace[..3] == start;
    }
  }

  /** With the check off, the first thing a run does is the substitution. */
  lemma UncheckedSubstitutesFirst(cfg: Config, newVersion: string, versionData: map<string, string>, tmp: string, env: Env)
    requires ConfigCheckDirty(cfg) == Success(false)
    ensures var r := SetVersion(cfg, newVersion, versionData, tmp, env);
      |r.trace| > 0 && r.trace[0] == Substitute(newVersion)
  {
    RunStart(cfg, newVersion, versionData, tmp, env);
    assert DirtyStage(cfg, env, []) == Step([], Success(()));
  }

  // ------------------------------------------------------------- late errors

  /** The current version is looked up only after the file was rewritten: a missing
      version fails the run, with a KeyError exactly when the substitution went
      through. */
  lemma MissingVersionAfterSubstitution(cfg: Config, newVersion: string, versionData: map<string, string>, tmp: string, env: Env)
    requires "version" !in versionData
    ensures var r := SetVersion(cfg, newVersion, versionData, tmp, env);
      && r.result.Failure?
      && (r.result.error == KeyError("version") <==>
            Substitute(newVersion) in r.trace && r.result.error != SubstitutionFailed)
  {
    RunStart(cfg, newVersion, versionData, tmp, env);
    NoSubstitutionWhileChecking(cfg, env, [], newVersion);
  }

  /** The extra-arguments TypeError has a message of its own: it ends in `list`, the
      option messages end in `boolean` or `string`, and the argument message starts
      with `expected`. */
  lemma ListMessageIsOwn(v: Value)
    requires !v.List?
    ensures forall name :: ListTypeMessage(v) != BoolTypeMessage(name)
    ensures forall name :: ListTypeMessage(v) != StrTypeMessage(name)
    ensures forall w :: ListTypeMessage(v) != ArgTypeMessage(w)
  {
    var m := ListTypeMessage(v);
    assert m[|m| - 1] == 't' && m[0] == 'o';
    forall name ensures m != BoolTypeMessage(name) {
      var b := BoolTypeMessage(name);
      assert b[|b| - 1] == 'n';
    }
    forall name ensures m != StrTypeMessage(name) {
      var s := StrTypeMessage(name);
      assert s[|s| - 1] == 'g';
    }
    forall w ensures m != ArgTypeMessage(w) {
      var a := ArgTypeMessage(w);
      assert a == "expected" + " str, bytes or os.PathLike object, not " + TypeName(w);
      assert a[0] == 'e';
    }
  }

  /** Only the commit stage raises the extra-arguments TypeError, and it does so after
      the probe, the staging command and the second probe. */
  lemma CommitStageExtraArgs(cfg: Config, ctx: Context, tmp: string, env: Env, h: seq<Event>)
    requires "commit_extra_args" in cfg && !cfg["commit_extra_args"].List?
    ensures var r := CommitStage(cfg, ctx, tmp, env, h);
      r.result == Failure(TypeError(ListTypeMessage(cfg["commit_extra_args"]))) ==>
        PathValue(cfg).Str? && r.trace == [Run(ProbeArgv), Run(AddArgv(PathValue(cfg).s)), Run(ProbeArgv)]
  {
    ListMessageIsOwn(cfg["commit_extra_args"]);
  }

  /** The dirty stage never raises the extra-arguments TypeError. */
  lemma DirtyStageNoListMessage(cfg: Config, env: Env, h: seq<Event>, v: Value)
    requires !v.List?
    ensures DirtyStage(cfg, env, h).result != Failure(TypeError(ListTypeMessage(v)))
  {
    ListMessageIsOwn(v);
  }

  /** The tag stage never raises the extra-arguments TypeError. */
  lemma TagStageNoListMessage(cfg: Config, ctx: Context, env: Env, h: seq<Event>, v: Value)
    requires !v.List?
    ensures TagStage(cfg, ctx, env, h).result != Failure(TypeError(ListTypeMessage(v)))
  {
    ListMessageIsOwn(v);
  }

  /** A run that stops before the commit stage never raises the extra-arguments
      TypeError. */
  lemma ExtraArgsNotEarly(cfg: Config, newVersion: string, versionData: map<string, string>, tmp: string, env: Env, v: Value)
    requires !v.List?
    requires var checked := DirtyStage(cfg, env, []);
      checked.result.Failure? || Substitution(env, checked.trace, newVersion).result.Failure?
      || "version" !in versionData
    ensures SetVersion(cfg, newVersion, versionData, tmp, env).result != Failure(TypeError(ListTypeMessage(v)))
  {
    RunStart(cfg, newVersion, versionData, tmp, env);
    DirtyStageNoListMessage(cfg, env, [], v);
  }

  /** Once the substitution went through, the extra-arguments TypeError can only come
      from the commit stage, after the staging. */
  lemma ExtraArgsInCommitStage(cfg: Config, newVersion: string, versionData: map<string, string>, tmp: string, env: Env)
    requires "commit_extra_args" in cfg && !cfg["commit_extra_args"].List?
    requires "version" in versionData
    requires var checked := DirtyStage(cfg, env, []);
      checked.result.Success? && Substitution(env, checked.trace, newVersion).result.Success?
    ensures var r := SetVersion(cfg, newVersion, versionData, tmp, env);
      r.result == Failure(TypeError(ListTypeMessage(cfg["commit_extra_args"]))) ==>
        && PathValue(cfg).Str?
        && r.trace == DirtyStage(cfg, env, []).trace
             + [Substitute(newVersion), Run(ProbeArgv), Run(AddArgv(PathValue(cfg).s)), Run(ProbeArgv)]
  {
    var checked := DirtyStage(cfg, env, []);
    var h := checked.trace + [Substitute(newVersion)];
    var ctx := Context(versionData["version"], newVersion);
    var committed := CommitStage(cfg, ctx, tmp, env, h);
    RunRaisesFirstError(cfg, newVersion, versionData, tmp, env);
    var r := SetVersion(cfg, newVersion, versionData, tmp, env);
    if committed.result.Failure? {
      assert r == Step(h + committed.trace, committed.result);
      CommitStageExtraArgs(cfg, ctx, tmp, env, h);
    } else {
      TagStageNoListMessage(cfg, ctx, env, h + committed.trace, cfg["commit_extra_args"]);
    }
  }

  /** Configuration errors surface where the option is read, after the side effects
      before it: whatever the configuration and the environment, a run that raises the
      extra-arguments TypeError has already rewritten the version, staged the file and
      probed git again. */
  lemma ExtraArgsCheckedLate(cfg: Config, newVersion: string, versionData: map<string, string>, tmp: string, env: Env)
    ensures var r := SetVersion(cfg, newVersion, versionData, tmp, env);
      "commit_extra_args" in cfg && !cfg["commit_extra_args"].List?
      && r.result == Failure(TypeError(ListTypeMessage(cfg["commit_extra_args"]))) ==>
        && "version" in versionData && PathValue(cfg).Str?
        && r.trace == DirtyStage(cfg, env, []).trace
             + [Substitute(newVersion), Run(ProbeArgv), Run(AddArgv(PathValue(cfg).s)), Run(ProbeArgv)]
  {
    if "commit_extra_args" in cfg && !cfg["commit_extra_args"].List? {
      var checked := DirtyStage(cfg, env, []);
      if checked.result.Failure? || Substitution(env, checked.trace, newVersion).result.Failure?
         || "version" !in versionData {
        ExtraArgsNotEarly(cfg, newVersion, versionData, tmp, env, cfg["commit_extra_args"]);
      } else {
        ExtraArgsInCommitStage(cfg, newVersion, versionData, tmp, env);
      }
    }
  }

  /** With defaults everywhere but a `commit_extra_args` that is not a list, and every
      command succeeding, the run raises the extra-arguments TypeError after the dirty
      check, the substitution, the staging and the second probe. */
  lemma ExtraArgsExample(value: Value, newVersion: string, versionData: map<string, string>, tmp: string, env: Env)
    requires !value.List?
    requires AllOk(env) && "version" in versionData
    ensures var r := SetVersion(map["commit_extra_args" := value], newVersion, versionData, tmp, env);
      && r.result == Failure(TypeError(ListTypeMessage(value)))
      && r.trace == [Run(ProbeArgv), Run(StatusArgv), Substitute(newVersion),
                     Run(ProbeArgv), Run(AddArgv("")), Run(ProbeArgv)]
  {
    var cfg := map["commit_extra_args" := value];
    var ctx := Context(versionData["version"], newVersion);
    DirtyStageAllOk(cfg, env, []);
    var checked := DirtyStage(cfg, env, []);
    assert env(checked.trace, Substitute(newVersion)) == Exited(0, []);
    var h := checked.trace + [Substitute(newVersion)];
    assert env(h, Run(ProbeArgv)) == Exited(0, []);
    assert env(h + [Run(ProbeArgv)], Run(AddArgv(""))) == Exited(0, []);
    assert env(h + [Run(ProbeArgv), Run(AddArgv(""))], Run(ProbeArgv)) == Exited(0, []);
  }
}

=== FILE: text.dfy ===
/** The handful of Python string operations the plugin relies on: `strip`/`lstrip`,
    `split` and `join` on one separator, `bytes.splitlines`, `int()` and `str()` of a
    natural number. Strings and byte strings are both `seq<char>`. */
module Text {
  import opened Wrappers

  /** The characters `bytes.strip()` removes when called without an argument. */
  const AsciiWhitespace: set<char> := {' ', '\t', '\n', '\r', '\U{B}', '\U{C}'}

  /** The characters for which `str.isspace()` holds: what `str.strip()` removes from
      both ends. */
  const UnicodeWhitespace: set<char> :=
    {'\t', '\n', '\U{B}', '\U{C}', '\r', '\U{1C}', '\U{1D}', '\U{1E}', '\U{1F}', ' ',
     '\U{85}', '\U{A0}', '\U{1680}',
     '\U{2000}', '\U{2001}', '\U{2002}', '\U{2003}', '\U{2004}', '\U{2005}',
     '\U{2006}', '\U{2007}', '\U{2008}', '\U{2009}', '\U{200A}',
     '\U{2028}', '\U{2029}', '\U{202F}', '\U{205F}', '\U{3000}'}

  /** `s.lstrip(cs)`: the longest suffix of `s` that does not start with a character of `cs`. */
  function TrimStart(s: string, cs: set<char>): (r: string)
    ensures |r| <= |s| && r == s[|s| - |r|..]
    ensures forall i :: 0 <= i < |s| - |r| ==> s[i] in cs
    ensures r == [] || r[0] !in cs
    decreases |s|
  {
    if |s| > 0 && s[0] in cs then TrimStart(s[1..], cs) else s
  }

  /** `s.rstrip(cs)`: the longest prefix of `s` that does not end with a character of `cs`. */
  function TrimEnd(s: string, cs: set<char>): (r: string)
    ensures |r| <= |s| && r == s[..|r|]
    ensures forall i :: |r| <= i < |s| ==> s[i] in cs
    ensures r == [] || r[|r| - 1] !in cs
    decreases |s|
  {
    if |s| > 0 && s[|s| - 1] in cs then TrimEnd(s[..|s| - 1], cs) else s
  }

  /** `s.strip(cs)`. */
  function Trim(s: string, cs: set<char>): (r: string)
    ensures r == [] || (r[0] !in cs && r[|r| - 1] !in cs)
  {
    TrimEnd(TrimStart(s, cs), cs)
  }

  /** A suffix holds no character its string does not. */
  lemma SuffixKeepsAbsent(s: string, t: string, c: char)
    requires c !in s && |t| <= |s| && t == s[|s| - |t|..]
    ensures c !in t
  {
    forall k | 0 <= k < |t| ensures t[k] != c {
      assert t[k] == s[|s| - |t| + k];
    }
  }

  /** A prefix holds no character its string does not. */
  lemma PrefixKeepsAbsent(s: string, t: string, c: char)
    requires c !in s && |t| <= |s| && t == s[..|t|]
    ensures c !in t
  {
    forall k | 0 <= k < |t| ensures t[k] != c {
      assert t[k] == s[k];
    }
  }

  /** Stripping adds no character. */
  lemma TrimKeepsAbsent(s: string, cs: set<char>, c: char)
    requires c !in s
    ensures c !in Trim(s, cs)
  {
    var front := TrimStart(s, cs);
    SuffixKeepsAbsent(s, front, c);
    PrefixKeepsAbsent(front, TrimEnd(front, cs), c);
  }

  /** A string that starts and ends outside `cs` is its own strip, and so is any
      such string followed by characters of `cs` only. */
  lemma TrimOfPadded(s: string, pad: string, cs: set<char>)
    requires |s| > 0 && s[0] !in cs && s[|s| - 1] !in cs
    requires forall i :: 0 <= i < |pad| ==> pad[i] in cs
    ensures Trim(s + pad, cs) == s
  {
    assert (s + pad)[0] == s[0];
    assert TrimStart(s + pad, cs) == s + pad;
    TrimEndOfPadded(s, pad, cs);
  }

  lemma {:induction false} TrimEndOfPadded(s: string, pad: string, cs: set<char>)
    requires |s| > 0 && s[|s| - 1] !in cs
    requires forall i :: 0 <= i < |pad| ==> pad[i] in cs
    ensures TrimEnd(s + pad, cs) == s
    decreases |pad|
  {
    if |pad| > 0 {
      var t := s + pad;
      assert t[|t| - 1] == pad[|pad| - 1];
      assert t[..|t| - 1] == s + pad[..|pad| - 1];
      TrimEndOfPadded(s, pad[..|pad| - 1], cs);
    } else {
      assert s + pad == s;
    }
  }

  /** `sep.join(parts)`. */
  function Join(parts: seq<string>, sep: char): string
  {
    if |parts| == 0 then []
    else if |parts| == 1 then parts[0]
    else parts[0] + [sep] + Join(parts[1..], sep)
  }

  /** `s.split(sep)`: never empty, no piece holds the separator, and joining the pieces
      gives back `s`. */
  function Split(s: string, sep: char): (parts: seq<string>)
    ensures |parts| >= 1
    ensures forall i :: 0 <= i < |parts| ==> sep !in parts[i]
    ensures Join(parts, sep) == s
    decreases |s|
  {
    if |s| == 0 then [[]]
    else
      var rest := Split(s[1..], sep);
      if s[0] == sep then
        assert [sep] + s[1..] == s;
        [[]] + rest
      else
        var parts := [[s[0]] + rest[0]] + rest[1..];
        assert parts[1..] == rest[1..];
        assert |rest| > 1 ==> Join(rest, sep) == rest[0] + [sep] + Join(rest[1..], sep);
        assert [s[0]] + s[1..] == s;
        parts
  }

  /** A string without the separator is a single piece. */
  lemma {:induction false} SplitNoSeparator(s: string, sep: char)
    requires sep !in s
    ensures Split(s, sep) == [s]
    decreases |s|
  {
    if |s| > 0 {
      SplitNoSeparator(s[1..], sep);
    }
  }

  /** Splitting distributes over a separator occurrence. */
  lemma {:induction false} SplitAtSeparator(a: string, b: string, sep: char)
    ensures Split(a + [sep] + b, sep) == Split(a, sep) + Split(b, sep)
    decreases |a|
  {
    var s := a + [sep] + b;
    if |a| == 0 {
      assert s[1..] == b;
    } else {
      assert s[1..] == a[1..] + [sep] + b;
      SplitAtSeparator(a[1..], b, sep);
    }
  }

  /** Split undoes Join whenever no piece holds the separator. */
  lemma {:induction false} SplitJoin(parts: seq<string>, sep: char)
    requires |parts| >= 1
    requires forall i :: 0 <= i < |parts| ==> sep !in parts[i]
    ensures Split(Join(parts, sep), sep) == parts
    decreases |parts|
  {
    if |parts| == 1 {
      SplitNoSeparator(parts[0], sep);
    } else {
      SplitNoSeparator(parts[0], sep);
      SplitJoin(parts[1..], sep);
      SplitAtSeparator(parts[0], Join(parts[1..], sep), sep);
      assert [parts[0]] + parts[1..] == parts;
    }
  }

  /** Index of the first line terminator (`\n` or `\r`) of `s`, or `|s|` if there is none. */
  function LineEnd(s: string): (n: nat)
    ensures n <= |s|
    ensures forall i :: 0 <= i < n ==> s[i] != '\n' && s[i] != '\r'
    ensures n < |s| ==> s[n] == '\n' || s[n] == '\r'
    decreases |s|
  {
    if |s| == 0 || s[0] == '\n' || s[0] == '\r' then 0 else 1 + LineEnd(s[1..])
  }

  /** `bytes.splitlines()`: lines end at `\n`, `\r` or `\r\n`; a final terminator does
      not open an empty last line. No line holds a terminator. */
  function SplitLines(s: string): (lines: seq<string>)
    ensures forall i :: 0 <= i < |lines| ==> '\n' !in lines[i] && '\r' !in lines[i]
    ensures |lines| <= |s|
    decreases |s|
  {
    if |s| == 0 then []
    else
      var n := LineEnd(s);
      if n == |s| then [s]
      else
        var next := if s[n] == '\r' && n + 1 < |s| && s[n + 1] == '\n' then n + 2 else n + 1;
        [s[..n]] + SplitLines(s[next..])
  }

  /** Each line followed by `\n`: the shape of a command's output. */
  function Terminated(lines: seq<string>): string
  {
    if |lines| == 0 then [] else lines[0] + "\n" + Terminated(lines[1..])
  }

  /** Splitting `\n`-terminated output gives back its lines. */
  lemma {:induction false} SplitLinesTerminated(lines: seq<string>)
    requires forall i :: 0 <= i < |lines| ==> '\n' !in lines[i] && '\r' !in lines[i]
    ensures SplitLines(Terminated(lines)) == lines
    decreases |lines|
  {
    if |lines| > 0 {
      SplitLinesStep(lines[0], Terminated(lines[1..]));
      SplitLinesTerminated(lines[1..]);
      assert [lines[0]] + lines[1..] == lines;
    }
  }

  /** A line ended by `\n` comes off the front of the output whole. */
  lemma SplitLinesStep(l: string, rest: string)
    requires '\n' !in l && '\r' !in l
    ensures SplitLines(l + "\n" + rest) == [l] + SplitLines(rest)
  {
    var s := l + "\n" + rest;
    LineEndOf(l, "\n" + rest);
    assert s == l + ("\n" + rest);
    assert s[|l|] == '\n';
    assert s[..|l|] == l;
    assert s[|l| + 1..] == rest;
  }

  lemma {:induction false} LineEndOf(l: string, rest: string)
    requires '\n' !in l && '\r' !in l
    requires |rest| > 0 && rest[0] == '\n'
    ensures LineEnd(l + rest) == |l|
    decreases |l|
  {
    if |l| > 0 {
      assert (l + rest)[1..] == l[1..] + rest;
      LineEndOf(l[1..], rest);
    }
  }

  predicate IsDigit(c: char) {
    '0' as int <= c as int <= '9' as int
  }

  predicate IsDigits(s: string) {
    |s| > 0 && forall i :: 0 <= i < |s| ==> IsDigit(s[i])
  }

  function DigitChar(d: nat): (c: char)
    requires d < 10
    ensures IsDigit(c) && c as int - '0' as int == d
  {
    ('0' as int + d) as char
  }

  /** The value of a string of decimal digits. */
  function DigitsValue(s: string): nat
    requires forall i :: 0 <= i < |s| ==> IsDigit(s[i])
  {
    if |s| == 0 then 0
    else
      assert IsDigit(s[|s| - 1]);
      10 * DigitsValue(s[..|s| - 1]) + (s[|s| - 1] as int - '0' as int)
  }

  /** `str(n)` for a natural number `n`. */
  function NatToString(n: nat): (s: string)
    ensures IsDigits(s)
    decreases n
  {
    if n < 10 then [DigitChar(n)] else NatToString(n / 10) + [DigitChar(n % 10)]
  }

  /** `str(i)` for any integer. */
  function IntToString(i: int): string
  {
    if i < 0 then "-" + NatToString(-i) else NatToString(i)
  }

  /** Reading back a rendered number gives the number. */
  lemma {:induction false} DigitsValueOfNatToString(n: nat)
    ensures DigitsValue(NatToString(n)) == n
    decreases n
  {
    if n >= 10 {
      var s := NatToString(n);
      assert s[..|s| - 1] == NatToString(n / 10);
      DigitsValueOfNatToString(n / 10);
    }
  }

  /** The characters `int()` ignores around a number. CPython first turns every
      `str.isspace()` character above U+007F into a space and copies each ASCII
      character unchanged; its number parser then skips only the ASCII whitespace.
      So every `str.isspace()` character is ignored except the information separators
      U+001C to U+001F, which are spaces for `str.isspace()` but not ASCII whitespace. */
  const IntWhitespace: set<char> := UnicodeWhitespace - {'\U{1C}', '\U{1D}', '\U{1E}', '\U{1F}'}

  /** `int(s)` on a string: surrounding `IntWhitespace` is ignored, then one optional
      sign, then one or more ASCII digits; anything else is a `ValueError`, here
      `None`. A string without `-` never denotes a negative number, and a plain digit
      string denotes its own value. */
  function ParseInt(s: string): (r: Option<int>)
    ensures r.Some? && '-' !in s ==> r.value >= 0
    ensures IsDigits(s) ==> r == Some(DigitsValue(s))
  {
    DigitsAreTrimmed(s);
    var t := Trim(s, IntWhitespace);
    assert '-' in t ==> '-' in s;
    ParseTrimmed(t)
  }

  /** A plain digit string has no space at either end to trim. */
  lemma DigitsAreTrimmed(s: string)
    ensures IsDigits(s) ==> Trim(s, IntWhitespace) == s
  {
    if IsDigits(s) {
      DigitIsNotSpace(s[0]);
      DigitIsNotSpace(s[|s| - 1]);
      TrimOfPadded(s, [], IntWhitespace);
      assert s + [] == s;
    }
  }

  /** The information separators U+001C to U+001F: spaces for `str.isspace()`, but not
      for `int()`. */
  predicate IsSeparator(c: char) {
    0x1C <= c as int <= 0x1F
  }

  /** A separator in front of a token is never skipped, so `int()` rejects the token
      whatever follows, ASCII or not: `int("\x1c5")` and `int("\x1c5\u3000")` both
      raise. */
  lemma IntRejectsLeadingSeparator(c: char, rest: string)
    requires IsSeparator(c)
    ensures ParseInt([c] + rest) == None
  {
    SeparatorIsNoIntSpace(c);
    var t := Trim([c] + rest, IntWhitespace);
    TrimKeepsHead([c] + rest, IntWhitespace);
    NoNumberAfterSeparator(t);
    assert ParseInt([c] + rest) == ParseTrimmed(t);
  }

  lemma NoNumberAfterSeparator(t: string)
    requires |t| > 0 && IsSeparator(t[0])
    ensures ParseTrimmed(t) == None
  {
    assert !IsDigit(t[0]);
  }

  lemma SeparatorIsNoIntSpace(c: char)
    requires IsSeparator(c)
    ensures c !in IntWhitespace
  {
  }

  /** Stripping a string whose first character is not stripped keeps that character
      in front. */
  lemma TrimKeepsHead(s: string, cs: set<char>)
    requires |s| > 0 && s[0] !in cs
    ensures |Trim(s, cs)| > 0 && Trim(s, cs)[0] == s[0]
  {
    assert TrimStart(s, cs) == s;
  }

  /** A space beyond ASCII is skipped: a number followed by one is read. */
  lemma IntSkipsUnicodeSpace(digits: string, space: char)
    requires IsDigits(digits)
    requires space in UnicodeWhitespace && space as int >= 128
    ensures ParseInt(digits + [space]) == Some(DigitsValue(digits))
  {
    DigitIsNotSpace(digits[0]);
    DigitIsNotSpace(digits[|digits| - 1]);
    assert space in IntWhitespace;
    TrimOfPadded(digits, [space], IntWhitespace);
  }

  lemma DigitIsNotSpace(c: char)
    requires IsDigit(c)
    ensures c !in UnicodeWhitespace
  {
  }

  /** `int()` once the whitespace is gone. */
  function ParseTrimmed(t: string): (r: Option<int>)
    ensures r.Some? && '-' !in t ==> r.value >= 0
    ensures IsDigits(t) ==> r == Some(DigitsValue(t))
  {
    if |t| > 0 && (t[0] == '+' || t[0] == '-') then
      var magnitude := t[1..];
      if IsDigits(magnitude) then
        Some(if t[0] == '-' then -(DigitsValue(magnitude) as int) else DigitsValue(magnitude))
      else
        None
    else if IsDigits(t) then
      Some(DigitsValue(t))
    else
      None
  }

  /** `int(str(n)) == n`. */
  lemma ParseIntOfNatToString(n: nat)
    ensures ParseInt(NatToString(n)) == Some(n)
  {
    DigitsValueOfNatToString(n);
  }
}

=== FILE: values.dfy ===
/** Configuration values as the host build tool hands them over from the project's
    TOML table: booleans, integers, strings and arrays are distinguished; anything
    else (a float, a date, an inline table) is kept as its Python type name and the
    text `str()` gives for it. */
module Values {
  import opened Text

  datatype Value =
    | Bool(b: bool)
    | Int(i: int)
    | Str(s: string)
    | List(items: seq<Value>)
    | Other(typeName: string, text: string)

  /** `type(v).__name__`. */
  function TypeName(v: Value): string
  {
    match v
    case Bool(_) => "bool"
    case Int(_) => "int"
    case Str(_) => "str"
    case List(_) => "list"
    case Other(name, _) => name
  }

  /** `str(v)` for a value that is not a list (lists are never shown by the plugin). */
  function Show(v: Value): string
    requires !v.List?
  {
    match v
    case Bool(b) => if b then "True" else "False"
    case Int(i) => IntToString(i)
    case Str(s) => s
    case Other(_, text) => text
  }
}

=== FILE: version_source.dfy ===
/** `RegexCommitSource`: the version source that, after the inherited substitution of
    the new version into the file, optionally checks the tree is clean (before), then
    stages and commits the file and tags the commit. Configuration options are read and
    type-checked lazily, at the point of the code where they are used. */
module VersionSource {
  import opened Wrappers
  import opened Text
  import opened Errors
  import opened Values
  import opened Process
  import opened Git

  /** The plugin's configuration table. */
  type Config = map<string, Value>

  const CurrentField := "{current_version}"
  const NewField := "{new_version}"
  const DefaultMessage := "Bump version " + CurrentField + " \U{2192} " + NewField
  const DefaultTagName := "v" + NewField

  // ------------------------------------------------------------ configuration

  function BoolTypeMessage(name: string): string
  {
    "option `" + name + "` must be a boolean"
  }

  function StrTypeMessage(name: string): string
  {
    "option `" + name + "` must be a string"
  }

  /** The list check interpolates the offending value, not the option's name. */
  function ListTypeMessage(value: Value): string
    requires !value.List?
  {
    "option `" + Show(value) + "` must be a list"
  }

  /** `_get_bool_config(name, default)`: an absent option gives the default, a boolean
      is returned as it is, anything else raises a TypeError naming the option. */
  function GetBool(cfg: Config, name: string, default: bool): (r: Result<bool, Error>)
    ensures name !in cfg ==> r == Success(default)
    ensures name in cfg ==> (r.Success? <==> cfg[name].Bool?)
    ensures name in cfg && r.Success? ==> r.value == cfg[name].b
    ensures r.Failure? ==> r.error == TypeError(BoolTypeMessage(name))
  {
    var value := if name in cfg then cfg[name] else Bool(default);
    if value.Bool? then Success(value.b) else Failure(TypeError(BoolTypeMessage(name)))
  }

  /** `_get_str_config(name, default)`: the same for strings. */
  function GetStr(cfg: Config, name: string, default: string): (r: Result<string, Error>)
    ensures name !in cfg ==> r == Success(default)
    ensures name in cfg ==> (r.Success? <==> cfg[name].Str?)
    ensures name in cfg && r.Success? ==> r.value == cfg[name].s
    ensures r.Failure? ==> r.error == TypeError(StrTypeMessage(name))
  {
    var value := if name in cfg then cfg[name] else Str(default);
    if value.Str? then Success(value.s) else Failure(TypeError(StrTypeMessage(name)))
  }

  /** `config_commit_extra_args`: absent gives the empty list, a list is returned as it
      is (its elements are not checked), anything else raises a TypeError whose message
      shows the value. */
  function GetExtraArgs(cfg: Config): (r: Result<seq<Value>, Error>)
    ensures "commit_extra_args" !in cfg ==> r == Success([])
    ensures "commit_extra_args" in cfg ==> (r.Success? <==> cfg["commit_extra_args"].List?)
    ensures "commit_extra_args" in cfg && r.Success? ==> r.value == cfg["commit_extra_args"].items
    ensures r.Failure? ==>
      "commit_extra_args" in cfg && r.error == TypeError(ListTypeMessage(cfg["commit_extra_args"]))
  {
    var value := if "commit_extra_args" in cfg then cfg["commit_extra_args"] else List([]);
    if value.List? then Success(value.items) else Failure(TypeError(ListTypeMessage(value)))
  }

  /** `self.config.get("path", "")`: not type-checked here. */
  function PathValue(cfg: Config): Value
  {
    if "path" in cfg then cfg["path"] else Str("")
  }

  function ConfigCheckDirty(cfg: Config): Result<bool, Error> { GetBool(cfg, "check_dirty", true) }
  function ConfigCommit(cfg: Config): Result<bool, Error> { GetBool(cfg, "commit", true) }
  function ConfigCommitMessage(cfg: Config): Result<string, Error> { GetStr(cfg, "commit_message", DefaultMessage) }
  function ConfigTag(cfg: Config): Result<bool, Error> { GetBool(cfg, "tag", true) }
  function ConfigTagName(cfg: Config): Result<string, Error> { GetStr(cfg, "tag_name", DefaultTagName) }
  function ConfigTagMessage(cfg: Config): Result<string, Error> { GetStr(cfg, "tag_message", DefaultMessage) }
  function ConfigTagSign(cfg: Config): Result<bool, Error> { GetBool(cfg, "tag_sign", true) }

  /** The defaults of an empty configuration: every step on and signed, the tag named
      after the new version, both messages the bump message. */
  lemma Defaults()
    ensures ConfigCheckDirty(map[]) == Success(true)
    ensures ConfigCommit(map[]) == Success(true)
    ensures ConfigCommitMessage(map[]) == Success(DefaultMessage)
    ensures GetExtraArgs(map[]) == Success([])
    ensures ConfigTag(map[]) == Success(true)
    ensures ConfigTagName(map[]) == Success(DefaultTagName)
    ensures ConfigTagMessage(map[]) == Success(DefaultMessage)
    ensures ConfigTagSign(map[]) == Success(true)
    ensures PathValue(map[]) == Str("")
  {
  }

  // --------------------------------------------------------------- formatting

  /** The two names a message template may refer to. */
  datatype Context = Context(currentVersion: string, newVersion: string)

  /** `template.format(current_version=..., new_version=...)` restricted to plain
      replacement fields: each `{current_version}` and `{new_version}` is replaced,
      every other character is copied. */
  function Format(template: string, ctx: Context): string
    decreases |template|
  {
    if |template| == 0 then []
    else if CurrentField <= template then ctx.currentVersion + Format(template[|CurrentField|..], ctx)
    else if NewField <= template then ctx.newVersion + Format(template[|NewField|..], ctx)
    else [template[0]] + Format(template[1..], ctx)
  }

  /** Text without a brace passes through formatting unchanged, and formatting
      continues after it. */
  lemma {:induction false} FormatLiteral(text: string, rest: string, ctx: Context)
    requires '{' !in text
    ensures Format(text + rest, ctx) == text + Format(rest, ctx)
    decreases |text|
  {
    if |text| > 0 {
      var s := text + rest;
      assert s[0] == text[0] && s[0] != '{';
      assert !(CurrentField <= s) by { assert CurrentField[0] == '{'; }
      assert !(NewField <= s) by { assert NewField[0] == '{'; }
      assert s[1..] == text[1..] + rest;
      assert Format(s, ctx) == [s[0]] + Format(s[1..], ctx);
      FormatLiteral(text[1..], rest, ctx);
      assert [text[0]] + text[1..] == text;
    } else {
      assert text + rest == rest;
    }
  }

  /** Each replacement field is replaced by its value. */
  lemma FormatFields(rest: string, ctx: Context)
    ensures Format(CurrentField + rest, ctx) == ctx.currentVersion + Format(rest, ctx)
    ensures Format(NewField + rest, ctx) == ctx.newVersion + Format(rest, ctx)
  {
    assert (CurrentField + rest)[|CurrentField|..] == rest;
    assert (NewField + rest)[|NewField|..] == rest;
    assert !(CurrentField <= NewField + rest) by {
      assert CurrentField[1] != (NewField + rest)[1];
    }
  }

  /** The default tag name is `v` followed by the new version. */
  lemma FormatDefaultTagName(ctx: Context)
    ensures Format(DefaultTagName, ctx) == "v" + ctx.newVersion
  {
    FormatFields([], ctx);
    assert NewField + [] == NewField;
    assert DefaultTagName == "v" + NewField;
    FormatLiteral("v", NewField, ctx);
  }

  /** The default message names both versions. */
  lemma FormatDefaultMessage(ctx: Context)
    ensures Format(DefaultMessage, ctx)
         == "Bump version " + ctx.currentVersion + " \U{2192} " + ctx.newVersion
  {
    var arrow := " \U{2192} ";
    FormatFields([], ctx);
    assert NewField + [] == NewField;
    FormatLiteral(arrow, NewField, ctx);
    FormatFields(arrow + NewField, ctx);
    FormatLiteral("Bump version ", CurrentField + (arrow + NewField), ctx);
    DefaultMessageParts();
  }

  lemma DefaultMessageParts()
    ensures DefaultMessage == "Bump version " + (CurrentField + (" \U{2192} " + NewField))
  {
    var lead := "Bump version ";
    var arrow := " \U{2192} ";
    assert lead + CurrentField + arrow + NewField == (lead + CurrentField) + (arrow + NewField);
    assert (lead + CurrentField) + (arrow + NewField) == lead + (CurrentField + (arrow + NewField));
  }

  // ------------------------------------------------------------------- steps

  /** Runs `next` only if `first` returned; `next` must have been computed after the
      trace of `first`. */
  function Then<T>(first: Step<()>, next: Step<T>): (r: Step<T>)
  {
    if first.result.Failure? then Step(first.trace, Failure(first.result.error))
    else Step(first.trace + next.trace, next.result)
  }

  /** The `git` property: every access probes again, and raises GitNotAvailable
      when the probe says git is unusable. */
  function UseGit(env: Env, h: seq<Event>): (r: Step<()>)
    ensures r.trace == [Run(ProbeArgv)]
    ensures r.result.Success? <==> env(h, Run(ProbeArgv)).Exited? && env(h, Run(ProbeArgv)).code == 0
    ensures r.result.Failure? ==> r.result.error == GitNotAvailable || r.result.error.OSError?
    ensures var o := env(h, Run(ProbeArgv));
      (o.Exited? && o.code != 0) || (o.Raised? && o.errno in {ENOENT, EACCES, ENOTDIR}) ==>
        r.result == Failure(GitNotAvailable)
    ensures var o := env(h, Run(ProbeArgv));
      o.Raised? && o.errno !in {ENOENT, EACCES, ENOTDIR} ==> r.result == Failure(OSError(o.errno))
  {
    var probe := IsUsable(env, h);
    Step(probe.trace,
         match probe.result
         case Failure(e) => Failure(e)
         case Success(usable) => if usable then Success(()) else Failure(GitNotAvailable))
  }

  /** Step 1: the dirty check, when `check_dirty` is on. */
  function DirtyStage(cfg: Config, env: Env, h: seq<Event>): (r: Step<()>)
    ensures r.result.Failure? ==>
      r.result.error.TypeError? || r.result.error.IsPluginError()
      || r.result.error.CalledProcessError? || r.result.error.OSError?
    ensures r.result.Failure? && r.result.error.WorkingDirectoryIsDirty? ==>
      r.trace == [Run(ProbeArgv), Run(StatusArgv)]
    ensures ConfigCheckDirty(cfg).Failure? ==> r == Step([], Failure(ConfigCheckDirty(cfg).error))
    ensures ConfigCheckDirty(cfg) == Success(false) ==> r == Step([], Success(()))
    ensures ConfigCheckDirty(cfg) == Success(true) ==>
      var gate := UseGit(env, h);
      && (gate.result.Failure? ==> r == gate)
      && (gate.result.Success? ==>
            r == Step([Run(ProbeArgv), Run(StatusArgv)], AssertNondirty(env, h + [Run(ProbeArgv)]).result))
  {
    match ConfigCheckDirty(cfg)
    case Failure(e) => Step([], Failure(e))
    case Success(check) =>
      if !check then Step([], Success(()))
      else
        var gate := UseGit(env, h);
        if gate.result.Failure? then gate
        else
          var status := AssertNondirty(env, h + [Run(ProbeArgv)]);
          Step([Run(ProbeArgv), Run(StatusArgv)], status.result)
  }

  /** Step 2: the inherited `RegexSource.set_version`, an opaque substitution. */
  function Substitution(env: Env, h: seq<Event>, version: string): (r: Step<()>)
    ensures r.trace == [Substitute(version)]
    ensures r.result.Failure? ==> r.result.error == SubstitutionFailed
    ensures r.result.Success? <==> env(h, Substitute(version)).Exited? && env(h, Substitute(version)).code == 0
  {
    var o := env(h, Substitute(version));
    Step([Substitute(version)], if o.Exited? && o.code == 0 then Success(()) else Failure(SubstitutionFailed))
  }

  /** Probe, then stage the tracked changes under the configured path. */
  function StageFile(cfg: Config, env: Env, h: seq<Event>): (r: Step<()>)
    ensures PathValue(cfg).Str? && r.result.Success? ==>
      r.trace == [Run(ProbeArgv), Run(AddArgv(PathValue(cfg).s))]
    ensures r.result.Failure? ==> !r.result.error.WorkingDirectoryIsDirty?
    ensures UseGit(env, h).result.Failure? ==> r == UseGit(env, h)
    ensures UseGit(env, h).result.Success? ==>
      var add := AddPath(env, h + [Run(ProbeArgv)], PathValue(cfg));
      r == Step([Run(ProbeArgv)] + add.trace, add.result)
  {
    var gate := UseGit(env, h);
    Then(gate, AddPath(env, h + gate.trace, PathValue(cfg)))
  }

  /** Format the message, probe, then commit with the extra arguments; the message
      option is read before the probe and the extra arguments after it. */
  function CommitFile(cfg: Config, ctx: Context, tmp: string, env: Env, h: seq<Event>): (r: Step<()>)
    ensures r.result.Failure? ==> !r.result.error.WorkingDirectoryIsDirty?
    ensures ConfigCommitMessage(cfg).Failure? ==> r == Step([], Failure(ConfigCommitMessage(cfg).error))
    ensures ConfigCommitMessage(cfg).Success? && UseGit(env, h).result.Failure? ==> r == UseGit(env, h)
    ensures ConfigCommitMessage(cfg).Success? && UseGit(env, h).result.Success? && GetExtraArgs(cfg).Failure? ==>
      r == Step([Run(ProbeArgv)], Failure(GetExtraArgs(cfg).error))
    ensures ConfigCommitMessage(cfg).Success? && UseGit(env, h).result.Success? && GetExtraArgs(cfg).Success? ==>
      var message := Format(ConfigCommitMessage(cfg).value, ctx);
      var commit := Commit(env, h + [Run(ProbeArgv)], tmp, message, Some(GetExtraArgs(cfg).value));
      r == Step([Run(ProbeArgv)] + commit.trace, commit.result)
  {
    match ConfigCommitMessage(cfg)
    case Failure(e) => Step([], Failure(e))
    case Success(template) =>
      var gate := UseGit(env, h);
      if gate.result.Failure? then gate
      else
        match GetExtraArgs(cfg)
        case Failure(e) => Step(gate.trace, Failure(e))
        case Success(extra) =>
          Then(gate, Commit(env, h + gate.trace, tmp, Format(template, ctx), Some(extra)))
  }

  /** Step 3: when `commit` is on, stage the file, then commit it. */
  function CommitStage(cfg: Config, ctx: Context, tmp: string, env: Env, h: seq<Event>): (r: Step<()>)
    ensures r.result.Failure? ==> !r.result.error.WorkingDirectoryIsDirty?
    ensures ConfigCommit(cfg).Failure? ==> r == Step([], Failure(ConfigCommit(cfg).error))
    ensures ConfigCommit(cfg) == Success(false) ==> r == Step([], Success(()))
    ensures ConfigCommit(cfg) == Success(true) ==>
      var staged := StageFile(cfg, env, h);
      && (staged.result.Failure? ==> r == staged)
      && (staged.result.Success? ==>
            var committed := CommitFile(cfg, ctx, tmp, env, h + staged.trace);
            r == Step(staged.trace + committed.trace, committed.result))
  {
    match ConfigCommit(cfg)
    case Failure(e) => Step([], Failure(e))
    case Success(commit) =>
      if !commit then Step([], Success(()))
      else
        var staged := StageFile(cfg, env, h);
        Then(staged, CommitFile(cfg, ctx, tmp, env, h + staged.trace))
  }

  /** Step 4: when `tag` is on, tag with the formatted name and message. The sign
      option is read after the probe. */
  function TagStage(cfg: Config, ctx: Context, env: Env, h: seq<Event>): (r: Step<()>)
    ensures r.result.Failure? ==> !r.result.error.WorkingDirectoryIsDirty?
    ensures ConfigTag(cfg).Failure? ==> r == Step([], Failure(ConfigTag(cfg).error))
    ensures ConfigTag(cfg) == Success(false) ==> r == Step([], Success(()))
    ensures ConfigTag(cfg) == Success(true) && ConfigTagName(cfg).Failure? ==>
      r == Step([], Failure(ConfigTagName(cfg).error))
    ensures ConfigTag(cfg) == Success(true) && ConfigTagName(cfg).Success? && ConfigTagMessage(cfg).Failure? ==>
      r == Step([], Failure(ConfigTagMessage(cfg).error))
    ensures ConfigTag(cfg) == Success(true) && ConfigTagName(cfg).Success? && ConfigTagMessage(cfg).Success? ==>
      var gate := UseGit(env, h);
      && (gate.result.Failure? ==> r == gate)
      && (gate.result.Success? && ConfigTagSign(cfg).Failure? ==>
            r == Step([Run(ProbeArgv)], Failure(ConfigTagSign(cfg).error)))
      && (gate.result.Success? && ConfigTagSign(cfg).Success? ==>
            var name := Format(ConfigTagName(cfg).value, ctx);
            var message := Format(ConfigTagMessage(cfg).value, ctx);
            var tag := Tag(env, h + [Run(ProbeArgv)], ConfigTagSign(cfg).value, name, message);
            r == Step([Run(ProbeArgv)] + tag.trace, tag.result))
  {
    match ConfigTag(cfg)
    case Failure(e) => Step([], Failure(e))
    case Success(tag) =>
      if !tag then Step([], Success(()))
      else
        match ConfigTagName(cfg)
        case Failure(e) => Step([], Failure(e))
        case Success(nameTemplate) =>
          match ConfigTagMessage(cfg)
          case Failure(e) => Step([], Failure(e))
          case Success(messageTemplate) =>
            var gate := UseGit(env, h);
            if gate.result.Failure? then gate
            else
              match ConfigTagSign(cfg)
              case Failure(e) => Step(gate.trace, Failure(e))
              case Success(sign) =>
                Then(gate, Tag(env, h + gate.trace, sign, Format(nameTemplate, ctx), Format(messageTemplate, ctx)))
  }

  /** `RegexCommitSource.set_version(version, version_data)` with `tmp` the name the
      temporary commit-message file gets. The first exception ends the run; nothing
      done before it is undone. */
  function SetVersion(cfg: Config, newVersion: string, versionData: map<string, string>, tmp: string, env: Env): (r: Step<()>)
  {
    var checked := DirtyStage(cfg, env, []);
    var substituted := Then(checked, Substitution(env, checked.trace, newVersion));
    if substituted.result.Failure? then substituted
    else if "version" !in versionData then Step(substituted.trace, Failure(KeyError("version")))
    else
      var ctx := Context(versionData["version"], newVersion);
      var committed := Then(substituted, CommitStage(cfg, ctx, tmp, env, substituted.trace));
      if committed.result.Failure? then committed
      else Then(committed, TagStage(cfg, ctx, env, committed.trace))
  }
}

=== FILE: wrappers.dfy ===
/** Failure-compatible datatypes used throughout the model: `Option` for values that
    may be absent (a dictionary that may be empty) and `Result` for computations that
    may raise. */
module Wrappers {

  datatype Option<+T> = None | Some(value: T)

  /** `Failure` stands for a Python exception propagating out of the call. */
  datatype Result<+T, +E> = Success(value: T) | Failure(error: E) {

    predicate IsFailure() {
      Failure?
    }

    function PropagateFailure<U>(): Result<U, E>
      requires Failure?
    {
      Failure(error)
    }

    function Extract(): T
      requires Success?
    {
      value
    }
  }
}
